=== FILE: README.md ===
# anyfs core in Dafny

A model of the sequential core of `anyfs`, an asynchronous filesystem
abstraction with a local backend and an Azure Blob Storage backend:

- **Node protocol** (`anyfs.aio.base`): nodes with their capability queries
  and the `require_dir`/`require_file` guards, the root test, the parent fixed
  point, child paths, the `_go` walk over `..`, `.` and names, the restart at
  the root for absolute paths, and the `_node` cache hit/miss/store rule.
  Module `FsCore`, with its properties in `Resolution`. Paths are the
  `PurePosixPath` subset in `Paths`.
- **HTTP retry loop** (`AFSWithHTTPClient._send`): header and body preparation, the
  success rule, the 403/other failure mapping, the transient-status retry, and
  the backoff schedule. The transport is a script of outcomes, one per
  attempt. Module `Http`, properties in `RetryProperties`.
- **Shared Key signing** (`AzureSharedKeyAuth.auth_flow`): the `x-ms-date` and
  `x-ms-version` stamps, the canonicalized headers and resource, the
  string to sign, and the `Authorization` header. The HMAC-SHA256 and base64
  step is the function `sign`. Module `SharedKey`, properties in
  `SigningProperties`.
- **Blob backend** (`AAzureBlobFS`, `_AAzureBlobNode`): the container URL and
  its `ValueError`s, and the node answers. Module `Blob`.
- **Local backend** (`ALocalFS`, `_ALocalNode`): the `S_ISDIR`/`S_ISREG` mode
  tests (module `StatMode`), and the guards that run before `os.listdir` and
  `open`. The file mode follows from the encoding. The default root is `/`,
  and the cache is off. Module `Local`.
- **Errors** (`anyfs.errors`): one datatype constructor per `raise_*` helper,
  with its exception class and its message. Module `Errors`.
- `Strings` holds the Python string operations involved: `lower`, `strip`,
  `join`, and `sorted` with its `str` ordering. `Wrappers` holds `Option` and
  `Result`.
- `Findings` reproduces each source defect as written, next to an input that
  shows it.

A raised exception is a `Failure(e)`. An operation that may resolve nodes
returns a `Step`, which holds three things:

- the result;
- the filesystem with its updated cache;
- the paths hydrated on the way.

Hydration (`_before_make_node`, i.e. `os.stat` for local filesystems) is a
function parameter. This lets the model state cache coherence: every cached
node is the node a fresh hydration would make. Sleeping is recorded as the
sequence of delays, not performed. The growth factor `1.5` is the rational
`3/2`, and `int()` truncation is spelled out.

Where the code departs from its evident intent, the model follows the intent
and the departure is listed under "Findings". Two departures are not
behaviour and are not modelled. `base.py` does not parse as written: line 161
reads `self->_auth_headers()` and line 180 reads
`except: httpx.RequestError as ex:`. The model reads them as
`self._auth_headers()` and `except httpx.RequestError as ex:`.

Other readings of the source:

- `_make_node` always returns a node object, so the `None` check at
  `base.py:94-95` can never fire. Hydration errors (`os.stat` raising)
  propagate, and the model propagates them.
- `_before_make_node` is defined twice in the blob module. The second
  definition, which returns `None`, is the one that takes effect.
- `AAzureBlobFS` never sets `_node_class`, so its nodes are plain `_ANode`s
  (a Finding). The model gives them the intended class, `_AAzureBlobNode`.
- The query keys are sorted by their original spelling and lower-cased only
  when emitted. The model does the same.

## Model

| member | source | states |
|---|---|---|
| FsCore.NewFs | src/anyfs/aio/base.py:61-67 | The root defaults to `/`. The cache is enabled exactly when both size and TTL are positive, and it starts empty. |
| FsCore.RequireDir | src/anyfs/aio/base.py:25-27 | Succeeds exactly when `is_dir` holds. Otherwise it fails with not-a-directory on the node's path. |
| FsCore.RequireFile | src/anyfs/aio/base.py:29-31 | Succeeds exactly when `is_file` holds. Otherwise it fails with not-a-file on the node's path. |
| FsCore.DefaultOperationsUnsupported | src/anyfs/aio/base.py:44-51 | The default `slurp`, `list` and `mkdir` always fail with `NotImplementedError`. The error names the operation and the path. |
| FsCore.Hydrate | src/anyfs/aio/base.py:104-105 | Local filesystems hydrate with the stat result or propagate its error. Every other backend hydrates with no data. |
| FsCore.MakeNode | src/anyfs/aio/base.py:100-102 | A node is made exactly when hydration succeeds. It sits at the requested path and holds the hydrated data. |
| FsCore.ResolvePath | src/anyfs/aio/base.py:87-98 | A cached lookup with the cache on returns a stored node without hydrating. Otherwise the path is hydrated once. A success is stored only when the cache is on, and a failure leaves the cache alone. |
| FsCore.ParentNode | src/anyfs/aio/base.py:82-85 | The root is its own parent at no cost. Any other node's parent is resolved at `path.parent`. |
| FsCore.ChildNode | src/anyfs/aio/base.py:40-42 | Fails with not-a-directory, with no hydration and no cache change, unless the node is a directory. A directory's child is resolved at `path / name`. |
| FsCore.Go | src/anyfs/aio/base.py:36-38 | `go` checks the directory guard before anything else. Then it walks the parsed expression. |
| FsCore.FsGo | src/anyfs/aio/base.py:107-119 | The walk never changes the backend, root or cache switch. An absolute path restarts at the root and walks only its part below the root path (`Resolution.AbsoluteIgnoresStart`, `Resolution.AbsoluteWalksBelowRoot`), or fails with `relative_to`'s `ValueError` (`Resolution.AbsoluteOutsideRootFails`). |
| FsCore.Segment | src/anyfs/aio/base.py:113-119 | One step of the loop hydrates at most once and keeps the configuration. `.`, and `..` at the root, return the node unchanged at no cost. A name below a non-directory fails with not-a-directory and changes nothing. |
| FsCore.Root | src/anyfs/aio/base.py:69-70 | `root()` keeps the configuration and hydrates at most the root path, once. A failure leaves the filesystem unchanged, and a lookup without hydration is a cache hit that succeeds. |
| FsCore.IsRoot | src/anyfs/aio/base.py:72-73 | A node is the root exactly when its path is the root path. `Resolution.RootIsItsOwnParent` states the consequences: the resolved root passes the test and is its own parent. |
| FsCore.IsDir | src/anyfs/aio/backend/local.py:14-15 | `S_ISDIR` of the stored mode on local nodes, `False` on every other node (base.py:19-20). `Local.GuardsExclude` and `Resolution.BaseNodesAreNeither` state what follows. |
| FsCore.IsFile | src/anyfs/aio/backend/local.py:17-18 | `S_ISREG` of the stored mode on local nodes, `False` on every other node (base.py:22-23). `Local.GuardsExclude` and `Resolution.BaseNodesAreNeither` state what follows. |
| FsCore.NotUnderRoot | src/anyfs/aio/base.py:112 | The error an absolute path outside the root raises is a `ValueError`. |
| FsCore.Walk | src/anyfs/aio/base.py:113-121 | The walk never changes the backend, the root or whether caching is on. |
| FsCore.Evict | src/anyfs/aio/base.py:65-67 | Cache eviction only removes entries. The surviving entries are unchanged. |
| Resolution.DotsAreNoOps | src/anyfs/aio/base.py:116-117 | Dropping every `.` segment leaves the walk's result, cache and hydrations unchanged. |
| Resolution.UpFromRootStays | src/anyfs/aio/base.py:82-84 | Any number of `..` from the root stays at the root, hydrating nothing. |
| Resolution.SameBackendSameNode | src/anyfs/aio/base.py:100-105 | The node made for a path depends only on the backend, not on the cache. |
| Resolution.ResolveKeepsCoherent | src/anyfs/aio/base.py:87-98 | A resolution keeps every cached node equal to what a fresh hydration would make. |
| Resolution.ResolveIgnoresCache | src/anyfs/aio/base.py:87-98 | On coherent caches, a resolution answers what a fresh `_make_node` answers, whatever the cache holds. |
| Resolution.SegmentKeepsCoherent | src/anyfs/aio/base.py:113-119 | One `_go` step keeps the cache coherent. |
| Resolution.SegmentIgnoresCache | src/anyfs/aio/base.py:113-119 | One `_go` step answers the same on any two coherent caches. |
| Resolution.WalkKeepsCoherent | src/anyfs/aio/base.py:107-121 | A whole walk keeps the cache coherent. |
| Resolution.CacheIsTransparent | src/anyfs/aio/base.py:107-121 | A walk gives the same result on any two coherent caches of one filesystem. |
| Resolution.CachedWalkAnswersAsUncached | src/anyfs/aio/base.py:88-98 | With a coherent cache, a walk answers what it would answer with caching off. |
| Resolution.AtMostOneHydrationPerSegment | src/anyfs/aio/base.py:113-119 | A walk hydrates at most once per segment. |
| Resolution.ResolvedAtPath | src/anyfs/aio/base.py:87-102 | A resolved node sits at the path that was asked for. |
| Resolution.ParentStaysUnderRoot | src/anyfs/aio/base.py:82-85 | The parent of a non-root path below the root is still below the root. |
| Resolution.WalkStaysUnderRoot | src/anyfs/aio/base.py:107-121 | From a node below the root, a walk never reaches a node outside it. |
| Resolution.EnoughUpsReachRoot | src/anyfs/aio/base.py:113-115 | Enough `..` segments from a node below the root end exactly at the root. |
| Resolution.AbsoluteIgnoresStart | src/anyfs/aio/base.py:110-112 | From two directories, an absolute expression yields the same node, cache and hydrations. |
| Resolution.AbsoluteOutsideRootFails | src/anyfs/aio/base.py:110-112 | An absolute path not below the root fails with the `ValueError` of `relative_to`. |
| Resolution.AbsoluteWalksBelowRoot | src/anyfs/aio/base.py:110-113 | An absolute path below the root walks only the segments after the root path, starting at the root node. |
| Resolution.GoDotIsIdentity | src/anyfs/aio/base.py:107-121 | `go(".")` from a directory returns that directory, with no hydration. |
| Resolution.NavigationNeedsDirectory | src/anyfs/aio/base.py:36-42 | From a non-directory, `go` and `_child` fail with not-a-directory, touching nothing. |
| Resolution.HitIgnoresDisk | src/anyfs/aio/base.py:88-91 | A cache hit does not depend on hydration at all. |
| Resolution.DisabledCacheRehydrates | src/anyfs/aio/base.py:65-67 | With caching off, resolving a path twice hydrates it twice and stores nothing. |
| Resolution.EnabledCacheHits | src/anyfs/aio/base.py:88-97 | With caching on, resolving a path again after a success is a hit with the same node. |
| Resolution.EvictKeepsCoherent | src/anyfs/aio/base.py:65-67 | Eviction keeps the cache coherent. |
| Resolution.NonLocalAlwaysResolves | src/anyfs/aio/base.py:100-105 | Every path of a non-local filesystem resolves to a node that holds no data. |
| Resolution.RootIsItsOwnParent | src/anyfs/aio/base.py:16-17 | The node `root()` returns passes `is_root` and is its own parent. Other nodes have their parent resolved at `path.parent`. |
| Resolution.BaseNodesAreNeither | src/anyfs/aio/base.py:19-31 | Base nodes are neither directory nor file, so both guards fail. |
| Paths.Parent | src/anyfs/aio/base.py:85 | `parent` keeps the anchor and drops the last segment. The anchor and `.` are their own parents. Appending the dropped segment gives back the path. |
| Paths.RelativeTo | src/anyfs/aio/base.py:112 | Defined exactly when the path lies below the base. The base's segments followed by the relative ones give the path. |
| Paths.Parse | src/anyfs/aio/base.py:108 | `PurePosixPath(s)` is absolute exactly when `s` starts with `/`, and its segments are non-empty, never `.`, and free of `/`. `Paths.ParseToString` states the round trip. |
| Paths.ParseToString | src/anyfs/aio/base.py:108 | Constructing a path from its string gives back the path. |
| StatMode.NeverBoth | src/anyfs/aio/backend/local.py:14-18 | No mode is both a directory and a regular file. |
| StatMode.OnlyTypeBitsMatter | src/anyfs/aio/backend/local.py:14-18 | Permission and other non-type bits do not affect `S_ISDIR` or `S_ISREG`. |
| Errors.ClassIdentifiesHelper | src/anyfs/errors.py:4-47 | Each helper raises its own exception class. |
| Errors.ParseMessage | src/anyfs/errors.py:4-47 | The class and message of a raised error determine which helper raised it and its arguments. |
| Errors.ParseUnsupported | src/anyfs/errors.py:46-47 | The not-supported message carries both the operation and the path, and both can be read back. |
| Http.TruncDiv | src/anyfs/aio/base.py:201 | Python's `int()` of a quotient truncates toward zero. |
| Http.NextDelay | src/anyfs/aio/base.py:201 | `int(delay * factor + 1)`. `RetryProperties.NextDelayGrows` states that it exceeds the delay when the factor is at least 1, and `RetryProperties.DefaultPolicyAgainstUnavailableServer` gives the default values 2, 4, 7. |
| Http.Verdict | src/anyfs/aio/base.py:180-198 | The attempt the loop stops at succeeds exactly when it got an accepted status, and then returns that status. It is permission denied exactly for a rejected 403, and an I/O error on the path otherwise. |
| Http.Delays | src/anyfs/aio/base.py:200-201 | The backoff schedule has one delay per sleep. |
| Http.RetryFrom | src/anyfs/aio/base.py:176-202 | The loop stops at the first attempt that is the last allowed or not worth repeating, and that attempt decides the outcome. Every earlier attempt was retryable and below the maximum, and the delays slept follow the schedule. |
| Http.Retry | src/anyfs/aio/base.py:170-202 | At least one call and at most `max(1, max_attempts)` calls. The outcome comes from the last call, and the sleeps are the schedule's first delays. |
| Http.PrepareHeaders | src/anyfs/aio/base.py:160-165 | The headers sent are the caller's plus the authorization headers, which win. A body sets `Content-Type` to `application/octet-stream` unless given. |
| Http.RequestBody | src/anyfs/aio/base.py:157 | Raw `content` is the body when given. Otherwise the `json` document is, and with neither there is no body. |
| Http.Send | src/anyfs/aio/base.py:157-202 | A failure is an I/O error or permission denied on the given file path, or on the URL when no path is given. The request succeeds exactly when the last call got an accepted status, after between 1 and `max(1, max_attempts)` calls. The headers sent are the caller's, with the authorization headers over them, and `Content-Type` defaults to `application/octet-stream` whenever the `content` keyword is passed, even as `None`. The body is the `content` value, else `json`. |
| RetryProperties.AcceptedResponseEndsLoop | src/anyfs/aio/base.py:185-191 | No attempt follows an accepted response. |
| RetryProperties.SucceedsAfterRetries | src/anyfs/aio/base.py:176-202 | `k` retryable failures then an accepted status cost `k + 1` calls and succeed, after the first `k` delays. |
| RetryProperties.PersistentFailureExhausts | src/anyfs/aio/base.py:180-198 | Persistent retryable failures cost exactly `max_attempts` calls and `max_attempts - 1` sleeps, then fail. |
| RetryProperties.NonTransientNotRetried | src/anyfs/aio/base.py:193-198 | A rejected non-transient status ends the loop after one call: 403 is permission denied, anything else an I/O error. |
| RetryProperties.OutcomeOfLastCall | src/anyfs/aio/base.py:185-198 | The request succeeds exactly when the last call was accepted. It reports permission denied exactly when the last call was a rejected 403. |
| RetryProperties.NextDelayGrows | src/anyfs/aio/base.py:201 | With a factor of at least 1, the next delay is strictly longer. |
| RetryProperties.DelaysIncrease | src/anyfs/aio/base.py:200-201 | With a factor of at least 1, the delays slept strictly increase. |
| RetryProperties.DefaultPolicyAgainstUnavailableServer | src/anyfs/aio/base.py:123-134 | Under the defaults, a server that always answers 503 sees 4 calls, with sleeps of 2, 4 and 7, and the request is an I/O error. |
| RetryProperties.ExplicitNoContentIsTyped | src/anyfs/aio/base.py:164-165 | `content=None` passed explicitly still gets `Content-Type: application/octet-stream`, because line 164 tests the keyword's presence, and the request has no body. |
| SharedKey.Set | src/anyfs/aio/backend/azure_blob/sharedkeyauth.py:17 | Assigning a header makes it answer the new value and leaves every other header alone. |
| SharedKey.SetDefault | src/anyfs/aio/backend/azure_blob/sharedkeyauth.py:18 | `setdefault` changes nothing when the header is present. Otherwise it sets it, leaving the others alone. |
| SharedKey.Stamp | src/anyfs/aio/backend/azure_blob/sharedkeyauth.py:16-18 | `x-ms-date` is always overwritten. `x-ms-version` becomes `2019-07-07` only when absent. Nothing else changes. |
| SharedKey.MsHeaders | src/anyfs/aio/backend/azure_blob/sharedkeyauth.py:34-38 | Exactly the headers whose lower-cased name starts with `x-ms-`, with lower-case names and stripped values. |
| SharedKey.MsHeadersDistinct | src/anyfs/aio/backend/azure_blob/sharedkeyauth.py:34-38 | Well-formed headers give each `x-ms-` name once. |
| SharedKey.CanonicalEntries | src/anyfs/aio/backend/azure_blob/sharedkeyauth.py:39-41 | The canonicalized headers are the `x-ms-` entries, permuted into name order. |
| SharedKey.ContentLength | src/anyfs/aio/backend/azure_blob/sharedkeyauth.py:43-46 | An absent or `"0"` Content-Length signs as empty. Any other value is signed verbatim. |
| SharedKey.CanonicalHeaders | src/anyfs/aio/backend/azure_blob/sharedkeyauth.py:33-41 | One `name:value` line per `x-ms-` entry in name order. `SigningProperties.CanonicalHeadersOrderFree` states that header order does not matter. |
| SharedKey.CanonicalResource | src/anyfs/aio/backend/azure_blob/sharedkeyauth.py:22-31 | `/account` and the path, then one line per query key in sorted order. `SigningProperties.CanonicalResourceOrderFree` states that query order does not matter. |
| SharedKey.StringToSign | src/anyfs/aio/backend/azure_blob/sharedkeyauth.py:49-64 | `SigningProperties.StringToSignLines` states its layout: twelve lines of verb and slots, then the canonical headers and resource. `SigningProperties.SlotsAreSigned` and `SigningProperties.SignatureIgnoresOrder` state what it distinguishes and what it ignores. |
| SharedKey.Authorization | src/anyfs/aio/backend/azure_blob/sharedkeyauth.py:73 | `SharedKey <account>:<signature>`. `SigningProperties.AuthorizationRoundTrip` states that account and signature read back from it when the account has no colon. |
| SharedKey.Slot | src/anyfs/aio/backend/azure_blob/sharedkeyauth.py:49-61 | The Date slot is always empty. The Content-Length slot follows `SharedKey.ContentLength`: empty for a missing, `"0"` or empty header. Every other standard slot signs the header's value, or empty when it is missing. |
| SharedKey.HeaderSlots | src/anyfs/aio/backend/azure_blob/sharedkeyauth.py:43-61 | Eleven slots. The Date slot (the sixth) is always empty. The Content-Length slot (the third) is empty exactly when the header is missing, `"0"` or empty, and otherwise holds its value. Every other slot holds its header's value, or is empty when the header is missing. |
| SharedKey.AuthFlow | src/anyfs/aio/backend/azure_blob/sharedkeyauth.py:14-76 | The request keeps its verb, path and query and gets the date and version stamps. No other header changes except `Authorization`. That header is `SharedKey account:sign(key, string-to-sign of the stamped request)`. |
| SigningProperties.TerminatedLines | src/anyfs/aio/backend/azure_blob/sharedkeyauth.py:49-61 | Newline-terminated fields without newlines can be read back one by one. |
| SigningProperties.StringToSignLines | src/anyfs/aio/backend/azure_blob/sharedkeyauth.py:49-64 | The string to sign begins with the verb and the eleven slots as twelve lines. The canonical headers and resource follow. |
| SigningProperties.SlotsAreSigned | src/anyfs/aio/backend/azure_blob/sharedkeyauth.py:49-64 | Requests that differ in verb or in a signed slot have different strings to sign. |
| SigningProperties.LookupOrderFree | src/anyfs/aio/backend/azure_blob/sharedkeyauth.py:44-61 | Header lookups do not depend on the order the headers were set in. |
| SigningProperties.CanonicalHeadersOrderFree | src/anyfs/aio/backend/azure_blob/sharedkeyauth.py:34-41 | The canonicalized headers do not depend on header order. |
| SigningProperties.CanonicalResourceOrderFree | src/anyfs/aio/backend/azure_blob/sharedkeyauth.py:22-31 | The canonicalized resource does not depend on query parameter order. |
| SigningProperties.SignatureIgnoresOrder | src/anyfs/aio/backend/azure_blob/sharedkeyauth.py:49-64 | Requests that differ only in header and query order have the same string to sign. |
| SigningProperties.ParseAuthorization | src/anyfs/aio/backend/azure_blob/sharedkeyauth.py:73-74 | Anything it accepts is an `Authorization` value of the account and signature it returns. |
| SigningProperties.AuthorizationRoundTrip | src/anyfs/aio/backend/azure_blob/sharedkeyauth.py:73-74 | If the account name has no colon, the account and signature can be read back from the header. |
| Strings.Strip | src/anyfs/aio/backend/azure_blob/sharedkeyauth.py:35 | `strip()` keeps a middle slice with no whitespace at either end, cutting off only whitespace. |
| Strings.SortBy | src/anyfs/aio/backend/azure_blob/sharedkeyauth.py:29 | `sorted` returns an ordered permutation. |
| Strings.Sort | src/anyfs/aio/backend/azure_blob/sharedkeyauth.py:31 | Sorting the values returns an ordered permutation. |
| Strings.SortedUnique | src/anyfs/aio/backend/azure_blob/sharedkeyauth.py:39-41 | A sorted sequence with distinct keys is determined by its elements. |
| Blob.ContainerUrl | src/anyfs/aio/backend/azure_blob/__init__.py:40-53 | Raises "url, host or account is required" exactly when all three are missing. Raises "container is required" exactly when there is no url, a host or account is given, and the container is missing. The result always ends in `/`. A given url gets a `/` unless it has one, then the container and a `/` when a container is given. |
| Blob.DefaultEndpoint | src/anyfs/aio/backend/azure_blob/__init__.py:44-47 | Without a url, the result is `https://host/container/`. The host defaults to `account.blob.core.windows.net`. |
| Blob.ContainerUrlIsStable | src/anyfs/aio/backend/azure_blob/__init__.py:48-52 | Passing a computed URL back as `url`, without a container, returns it unchanged. |
| Blob.NewBlobFs | src/anyfs/aio/backend/azure_blob/__init__.py:29-56 | Construction fails exactly as the URL rule does. On success the root is `/` and the cache follows size and TTL. |
| Blob.BlobNodesAreOpaque | src/anyfs/aio/backend/azure_blob/__init__.py:8-25 | Blob nodes are neither directory nor file. `list`, `stat` and `slurp` fail as unsupported. Navigation below a blob node fails with not-a-directory. |
| Blob.BlobRoot | src/anyfs/aio/backend/azure_blob/__init__.py:58-63 | The blob root resolves with no data, and it is its own parent. |
| Local.ModeFor | src/anyfs/aio/backend/local.py:29-32 | Binary mode exactly when the encoding is `None`. Otherwise text mode with that encoding. |
| Local.List | src/anyfs/aio/backend/local.py:20-22 | No directory read happens exactly when the node is not a directory, which fails with not-a-directory. Otherwise there is one `listdir` of the node's path. |
| Local.Slurp | src/anyfs/aio/backend/local.py:27-34 | No open happens exactly when the node is not a file, which fails with not-a-file. Otherwise there is one read in the mode the encoding selects. |
| Local.DefaultSlurpIsUtf8Text | src/anyfs/aio/backend/local.py:27 | The default `slurp()` reads UTF-8 text. |
| Local.GuardsExclude | src/anyfs/aio/backend/local.py:14-31 | No node is both listed and read. |
| Local.StatIsTakenAtCreation | src/anyfs/aio/backend/local.py:48-49 | A local node exists exactly when `os.stat` succeeds, and it carries that stat result. |
| Local.DefaultRoot | src/anyfs/aio/backend/local.py:41-42 | The default root is `C:\` on `nt` and `/` elsewhere. |
| Local.NewLocalFs | src/anyfs/aio/backend/local.py:40-43 | A local filesystem has the given root or `/`, and its cache is off. |
| Local.LocalNeverCaches | src/anyfs/aio/backend/local.py:43 | Every resolution on a local filesystem stats the path again and stores nothing. A node exists exactly when the stat succeeds. |
| Findings.Lift | src/anyfs/errors.py:4-47 | A raised library error and a returned value carry over unchanged. |
| Findings.Resolve | src/anyfs/aio/base.py:183 | A name resolves exactly when the scope binds it. Otherwise it is a `NameError`. |
| Findings.ReadAttributes | src/anyfs/aio/base.py:170-173 | Reading attributes succeeds exactly when every one exists. Otherwise it fails on a missing one. |
| Findings.TransientCodesMisnamed | src/anyfs/aio/base.py:173 | As written, every `_send` fails reading the transient codes. |
| Findings.TransientCodesConsulted | src/anyfs/aio/base.py:151 | Under the constructor's name the settings are read, and a non-transient rejection is not retried. |
| Findings.AcceptedAsWritten | src/anyfs/aio/base.py:186 | As written, checking any response is a `NameError`. |
| Findings.EveryResponseIsNameError | src/anyfs/aio/base.py:157 | No name bound in `_send` is `accepted_codes`, so even a 200 with no accepted codes fails as written. |
| Findings.RetryAsWritten | src/anyfs/aio/base.py:200 | As written, the loop fails exactly when a retry is due. Otherwise it agrees with the intended loop. |
| Findings.NoRetryEverHappens | src/anyfs/aio/base.py:200 | As written, a 503 followed by a 200 fails, where the intended loop succeeds on the second call. |
| Findings.SleepsAsWritten | src/anyfs/aio/base.py:200-201 | With the attribute fixed, every sleep would still be the first delay. |
| Findings.BackoffNeverGrows | src/anyfs/aio/base.py:200-201 | Under the defaults the sleeps would be 2, 2, 2 instead of 2, 4, 7. |
| Findings.CallAsWritten | src/anyfs/aio/base.py:179 | The request call fails exactly when given more positional arguments than the URL. |
| Findings.HeadersPassedPositionally | src/anyfs/aio/base.py:179 | `call(url, headers)` fails. |
| Findings.HeadersPassedByKeyword | src/anyfs/aio/base.py:162 | The intended call succeeds and sends the caller's headers merged with the authorization headers. |
| Findings.MakeNodeAsWritten | src/anyfs/aio/base.py:102 | As written, making a node fails with `TypeError` for every non-local backend. It agrees with the intended rule for local ones. |
| Findings.NoBlobNodeCanBeMade | src/anyfs/aio/base.py:12 | As written, not even the blob root can be made. The intended root node holds no data. |
| Findings.ResolveAsWritten | src/anyfs/aio/base.py:89-96 | As written, an uncached lookup that makes a node fails with `UnboundLocalError`. A cached lookup agrees with the intended rule. |
| Findings.UncachedLookupFails | src/anyfs/aio/base.py:96 | As written, an uncached lookup on a blob or plain filesystem always fails. |
| Findings.NewFsAsWritten | src/anyfs/aio/base.py:65-67 | As written, construction fails exactly when caching is on. Otherwise it agrees with the intended rule. |
| Findings.DefaultCacheCannotBeBuilt | src/anyfs/aio/base.py:65 | As written, the default cache settings cannot be constructed. The intended cache is on and empty. |
| Findings.CallHelper | src/anyfs/errors.py:16-17 | A helper given fewer arguments than it declares fails with `TypeError`. Given exactly as many, it raises its error. |
| Findings.RequireDirRaisesTypeError | src/anyfs/aio/base.py:27 | As written, `require_dir` fails with `TypeError`. The intended call raises not-a-directory. |
| Findings.EioIsUndefined | src/anyfs/aio/base.py:198 | `raise_eio` is not defined, but the loop's I/O failures need it. |
| Findings.PrepareHeadersAsWritten | src/anyfs/aio/base.py:157-165 | Without authorization, the `Content-Type` default is written into the caller's dict, or into the shared default dict when the caller passed none. With authorization a new dict is built and neither changes. |
| Findings.ContentTypeLeaks | src/anyfs/aio/base.py:157-165 | After an unauthorized upload without headers, the next unauthorized bodiless call without headers sends `Content-Type: application/octet-stream`. Prepared afresh it sends no header. |
| Findings.ContentTypeOnlyWhenAsked | src/anyfs/aio/base.py:160-165 | Prepared afresh, `Content-Type` is sent exactly when the `content` keyword is passed (even as `None`), or the caller's or the authorization headers name it. |
| Findings.BodyAsWritten | src/anyfs/aio/base.py:157-179 | As written, the body is never a JSON document: only `content` reaches the call. |
| Findings.JsonBodyIsDropped | src/anyfs/aio/base.py:157-179 | A call with only `json` sends no body, where the intended request carries the document. |
| Findings.BlobNodeAsWritten | src/anyfs/aio/base.py:11-59 | A blob filesystem's node is an `_ANode` as written: `stat` is an `AttributeError`, and `list` and `slurp` fail as unsupported. |
| Findings.BlobStatIsMissing | src/anyfs/aio/backend/azure_blob/__init__.py:27-36 | `stat()` of a blob node is an `AttributeError` as written. The intended `_AAzureBlobNode` fails it as unsupported. |
| Findings.BlobOperationsAreNameErrors | src/anyfs/aio/backend/azure_blob/__init__.py:19 | `raise_enotsup` is not bound in the blob module. The intended `list` fails as unsupported. |
| Findings.LocalStatAsWritten | src/anyfs/aio/backend/local.py:25 | As written, `stat()` always fails with `AttributeError`. |
| Findings.LocalStatFails | src/anyfs/aio/backend/local.py:24-25 | As written, `stat()` fails even for a node whose stat succeeded. The intended answer is that stat result. |

## Left out

- Asynchrony and concurrent access to the cache: every operation is a sequential function.
- The httpx client, `anyio.sleep` and `logging`: the transport is a script of outcomes, and sleeps are recorded delays.
- `DefaultAzureCredential`, `_auth_headers` and the client the blob constructor creates: the authorization headers are a parameter of `Send`, and `_send`'s `authorize` flag selects them.
- HMAC-SHA256, base64 and the decoding of the account key: `sign` is a function parameter, and the key is bytes.
- `datetime.utcnow` formatting: the date is a string parameter.
- `urlparse` and `parse_qs`: the request carries its path and its parsed query, each key once.
- `os.stat`, `os.listdir` and `open(...).read()`: function parameters, with every call recorded.
- The `print` in the local node constructor.
- The cachetools LRU and TTL eviction policy and its clock: `FsCore.Evict` removes any set of entries.
- `reload`, a no-op, and `mkdir`, which only raises not-supported (covered by `FsCore.DefaultOperationsUnsupported`).
- Extra keyword arguments of `_send` other than `content`; the timeout given to the httpx client.
- `src/anyfs/aio/backend/azure_blob.py`: the `azure_blob/` package shadows it, and it does not parse.
- Http.PrepareHeaders: a pure function. The source updates a dict in place; the in-place update of the caller's dict and of the shared default `{}` is modelled only by `Findings.PrepareHeadersAsWritten`.
- FsCore.NotUnderRoot: the `ValueError` message uses the wording of `relative_to` in Python 3.12 and later. Earlier versions append " OR one path is relative and the other is absolute.", and `repr` switches to double quotes for a path containing `'`.
- Http.Retry: the growth factor is an exact rational where the source multiplies floats. With `1.5` the two agree until the float products lose precision. The first delay is an integer, whereas the source accepts any number, such as `0.5`, and sleeps it unchanged; every later delay is an `int()` in both.
- Local.NewLocalFs: models POSIX only. On Windows the root `C:\` is a `PureWindowsPath`, whose drive and separator rules are not modelled; `Local.DefaultRoot` still gives the `nt` answer.
- Paths.ParseToString: covers only the `PurePosixPath` rules the walk needs. The `//` anchor pathlib keeps is not modelled.
- Strings.Lower: ASCII-only. Header names and query keys outside ASCII are not lower-cased the way Python would.
- SharedKey.MsHeaders: headers are httpx's `items()` view, lower-case names each once. A repeated name, which httpx merges, is not modelled.
- FsCore.Walk: its own contract states only that the configuration is kept; what the walk computes is stated by the lemmas of `Resolution`.
- Errors.ParseMessage: an operation name containing a quote cannot be read back from the not-supported message, so the lemma excludes it.

## Findings

| source | as written | input that shows it | evidently intended | confidence | as-written member | corrected member |
|---|---|---|---|---|---|---|
| src/anyfs/aio/base.py:173 | reads `self._http_transitory_http_codes`, but the constructor sets `_http_transitory_codes` (line 151), so `AttributeError` | any call of `_send` | read `_http_transitory_codes` | high; not executed | Findings.TransientCodesMisnamed | Findings.TransientCodesConsulted |
| src/anyfs/aio/base.py:186 | tests `accepted_codes`, but the parameter is `accepted_code` (line 157), so `NameError` | any response, e.g. status 200 with no accepted codes | test the parameter | high; not executed | Findings.AcceptedAsWritten | RetryProperties.OutcomeOfLastCall |
| src/anyfs/aio/base.py:200 | sleeps `self.http_retry_delay`, which is never set, so `AttributeError` before the first retry | default policy; first call 503, second 200 | sleep the local `http_retry_delay` | high; not executed | Findings.RetryAsWritten | RetryProperties.SucceedsAfterRetries |
| src/anyfs/aio/base.py:200-201 | even under the constructor's name, the sleep would reread the first delay, ignoring the delay grown at line 201 | default policy, server always 503: sleeps 2, 2, 2 | sleeps 2, 4, 7 | high; not executed | Findings.SleepsAsWritten | RetryProperties.DelaysIncrease |
| src/anyfs/aio/base.py:179 | `call(url, headers, **kwargs)` passes the headers positionally; httpx's request methods take only the URL positionally, so `TypeError` | any `_send` | `call(url, headers=headers, **kwargs)` | high; not executed | Findings.CallAsWritten | Findings.HeadersPassedByKeyword |
| src/anyfs/aio/base.py:102 | `_node_class(self, path, inner_data)`, while `_ANode.__init__` takes `fs, path` (line 12), so `TypeError` for the base and blob filesystems | `root()` of a blob filesystem | build `_ANode` from `fs, path` and ignore the empty data | high; not executed | Findings.MakeNodeAsWritten | Resolution.NonLocalAlwaysResolves |
| src/anyfs/aio/base.py:89-96 | `node_cache` is bound only inside `if cached:`, so `UnboundLocalError` at line 96 | `_node(path, cached=False)` for a path that hydrates | read the cache field before the test | high; not executed | Findings.ResolveAsWritten | FsCore.ResolvePath |
| src/anyfs/aio/base.py:65 | `cachetools.LRUCache(maxsize=..., ttl=...)`; `LRUCache` takes no `ttl`, so `TypeError` | default `cache_size=1000`, `cache_ttl=120` | a TTL cache of that size and TTL | high; not executed | Findings.NewFsAsWritten | FsCore.NewFs |
| src/anyfs/errors.py:16 | every helper declares a leading `self`, which callers never pass, so `TypeError` | `require_dir` of a non-directory, calling `raise_enotdir(path)` | helpers without `self` | high; not executed | Findings.RequireDirRaisesTypeError | FsCore.RequireDir |
| src/anyfs/aio/base.py:198 | `raise_eio` is not defined in `errors.py`, so `NameError` | a 503 on the last attempt | an I/O-error helper raising `OSError` on the path | high; not executed | Findings.EioIsUndefined | RetryProperties.DefaultPolicyAgainstUnavailableServer |
| src/anyfs/aio/base.py:157 | the default `headers={}` is one dict shared by all calls, and without authorization line 165 `setdefault`s into it | an unauthorized `_send` with `content` and no headers, then one with neither | a fresh dict per call | high; not executed | Findings.ContentTypeLeaks | Findings.ContentTypeOnlyWhenAsked |
| src/anyfs/aio/base.py:179 | `json` is accepted at line 157 but only `**kwargs` is passed on, so the document is never sent | `_send(..., json={"a": 1})` | pass `json=json` to the call | high; not executed | Findings.JsonBodyIsDropped | Http.RequestBody |
| src/anyfs/aio/backend/azure_blob/__init__.py:27 | `AAzureBlobFS` never sets `_node_class`, so nodes are `_ANode` (base.py:59), which has no `stat`, so `AttributeError` | `stat()` of a blob filesystem's node | `_node_class = _AAzureBlobNode` | high; not executed | Findings.BlobStatIsMissing | Blob.BlobNodesAreOpaque |
| src/anyfs/aio/backend/azure_blob/__init__.py:19 | `raise_enotsup` is never imported, so `NameError` | `_AAzureBlobNode(fs, path).list()` | import it from `anyfs.errors` | high; not executed | Findings.BlobOperationsAreNameErrors | Blob.BlobNodesAreOpaque |
| src/anyfs/aio/backend/local.py:25 | `os.stat_object` does not exist, so `AttributeError` | `stat()` of any local node | return the stat result the node holds | medium; not executed | Findings.LocalStatAsWritten | Local.StatIsTakenAtCreation |

=== FILE: blob.dfy ===
/** `anyfs.aio.azure_blob`: the blob filesystem's constructor, which settles the
    container URL every request is made against, and its nodes, which answer
    every capability query with "no" and every content operation with "not
    supported". The Azure credential and the HTTP client it creates are not
    part of this model. */
module Blob {
  import opened Wrappers
  import opened Strings
  import opened Errors
  import opened Paths
  import opened FsCore

  const HostSuffix := ".blob.core.windows.net"

  const NoLocation := BadValue("url, host or account is required")
  const NoContainer := BadValue("container is required")

  predicate EndsWithSlash(s: string) {
    |s| > 0 && s[|s| - 1] == '/'
  }

  /** The container URL. An explicit `url` wins, gets a trailing slash, and
      then the container (when given) as one more segment. Without it the
      host (defaulting to the account's blob endpoint) and the container are
      both required, in that order. */
  function ContainerUrl(account: Option<string>, container: Option<string>, host: Option<string>,
                        url: Option<string>): (r: Result<string, FsError>)
    ensures r == Failure(NoLocation) <==> url.None? && host.None? && account.None?
    ensures r == Failure(NoContainer) <==> (url.None? && (host.Some? || account.Some?) && container.None?)
    ensures r.Success? <==> url.Some? || ((host.Some? || account.Some?) && container.Some?)
    ensures r.Success? ==> EndsWithSlash(r.value)
    ensures url.Some? ==> r.Success? && url.value <= r.value
    ensures url.Some? ==>
              r.value == (if EndsWithSlash(url.value) then url.value else url.value + "/")
                         + (if container.Some? then container.value + "/" else "")
  {
    match url
    case Some(u) =>
      var base := if EndsWithSlash(u) then u else u + "/";
      Success(if container.Some? then base + container.value + "/" else base)
    case None =>
      if host.None? && account.None? then Failure(NoLocation)
      else
        var h := if host.Some? then host.value else account.value + HostSuffix;
        if container.None? then Failure(NoContainer)
        else Success("https://" + h + "/" + container.value + "/")
  }

  /** Without an explicit URL the container URL is the HTTPS endpoint of the
      host, or of the account's default blob host, with the container as its
      one path segment. */
  lemma DefaultEndpoint(account: Option<string>, container: string, host: Option<string>)
    requires host.Some? || account.Some?
    ensures ContainerUrl(account, Some(container), host, None)
         == Success("https://" + (if host.Some? then host.value else account.value + ".blob.core.windows.net")
                    + "/" + container + "/")
  {
  }

  /** Handing the computed URL back as `url`, without a container, yields the
      same URL: the constructor's normal form is stable. */
  lemma ContainerUrlIsStable(account: Option<string>, container: Option<string>, host: Option<string>,
                             url: Option<string>, a2: Option<string>, h2: Option<string>)
    requires ContainerUrl(account, container, host, url).Success?
    ensures var u := ContainerUrl(account, container, host, url).value;
            ContainerUrl(a2, None, h2, Some(u)) == Success(u)
  {
  }

  /** The constructed filesystem: POSIX root `/`, the cache settings, and the
      container URL. */
  datatype BlobFs = BlobFs(fs: Fs, url: string, container: Option<string>)

  function NewBlobFs(account: Option<string>, container: Option<string>, host: Option<string>,
                     url: Option<string>, cacheSize: int, cacheTtl: int): (r: Result<BlobFs, FsError>)
    ensures r.Success? <==> ContainerUrl(account, container, host, url).Success?
    ensures r.Failure? ==> r.error == ContainerUrl(account, container, host, url).error
    ensures r.Success? ==>
              && r.value.url == ContainerUrl(account, container, host, url).value
              && r.value.container == container
              && r.value.fs.backend == AzureBlob
              && r.value.fs.root == SlashRoot
              && (r.value.fs.cache.enabled <==> cacheSize > 0 && cacheTtl > 0)
              && r.value.fs.cache.entries == map[]
  {
    var fs := NewFs(AzureBlob, None, cacheSize, cacheTtl);
    match ContainerUrl(account, container, host, url)
    case Failure(e) => Failure(e)
    case Success(u) => Success(BlobFs(fs, u, container))
  }

  /** `list`, `stat` and `slurp` of a blob node. */
  function List(node: Node): Result<seq<string>, FsError> {
    Unsupported(node, "list")
  }

  function StatOf(node: Node): Result<Stat, FsError> {
    Unsupported(node, "stat")
  }

  function Slurp(node: Node): Result<string, FsError> {
    Unsupported(node, "slurp")
  }

  /** A blob node is neither a directory nor a file, every content operation
      fails with `NotImplementedError` naming the operation, and navigation
      below it fails with not-a-directory before touching the cache. */
  lemma BlobNodesAreOpaque(b: BlobFs, stat: StatFn, node: Node, expr: string, name: string)
    requires b.fs.backend == AzureBlob
    ensures !IsDir(b.fs, node) && !IsFile(b.fs, node)
    ensures List(node) == Failure(Enotsup(ToString(node.path), "list"))
    ensures StatOf(node) == Failure(Enotsup(ToString(node.path), "stat"))
    ensures Slurp(node) == Failure(Enotsup(ToString(node.path), "slurp"))
    ensures Class(List(node).error) == NotImplementedError
    ensures Go(b.fs, stat, node, expr) == Step(Failure(Enotdir(ToString(node.path))), b.fs, [])
    ensures ChildNode(b.fs, stat, node, name) == Step(Failure(Enotdir(ToString(node.path))), b.fs, [])
  {
  }

  /** The root of a blob filesystem resolves without hydration data, and its
      parent is itself. */
  lemma BlobRoot(b: BlobFs, stat: StatFn)
    requires b.fs.backend == AzureBlob && Coherent(b.fs, stat)
    ensures Root(b.fs, stat).result == Success(Node(b.fs.root, None))
    ensures var r := Root(b.fs, stat);
            ParentNode(r.fs, stat, r.result.value) == Step(Success(r.result.value), r.fs, [])
  {
  }
}

=== FILE: errors.dfy ===
/** The error taxonomy of `anyfs.errors`: one `raise_*` helper per POSIX error
    kind, each raising its own Python exception class with a fixed message
    shape. A raise is modelled as a `Failure(e)` value; `Class` and `Message`
    give the exception class and its `str()`. */
module Errors {
  import opened Wrappers
  import opened Strings

  /** The Python exception classes the helpers raise. */
  datatype PyClass =
    | FileNotFoundError
    | PermissionError
    | FileExistsError
    | IsADirectoryError
    | NotADirectoryError
    | NotAFileException
    | BlockingIOError
    | ChildProcessError
    | ConnectionAbortedError
    | ConnectionRefusedError
    | ConnectionResetError
    | InterruptedError
    | BrokenPipeError
    | TimeoutError
    | NotImplementedError
    | OSError
    | ValueError

  /** One constructor per `raise_*` helper, carrying the helper's arguments.
      `Eio` stands for the `raise_eio` that the HTTP client calls, which
      errors.py does not define: its class (`OSError`, like its siblings) and
      its message are this model's choice. `BadValue` stands for the
      `ValueError`s raised by path and URL validation. */
  datatype FsError =
    | Enoent(path: string)
    | Eacces(path: string)
    | Eexist(path: string)
    | Eisdir(path: string)
    | Enotdir(path: string)
    | Enotfile(path: string)
    | Ewouldblock
    | Echild
    | Econnaborted
    | Econnrefused(address: string)
    | Econnreset
    | Eintr
    | Epipe
    | Etimedout
    | Enotsup(path: string, operation: string)
    | Eio(path: string)
    | BadValue(message: string)

  function Class(e: FsError): PyClass {
    match e
    case Enoent(_) => FileNotFoundError
    case Eacces(_) => PermissionError
    case Eexist(_) => FileExistsError
    case Eisdir(_) => IsADirectoryError
    case Enotdir(_) => NotADirectoryError
    case Enotfile(_) => NotAFileException
    case Ewouldblock => BlockingIOError
    case Echild => ChildProcessError
    case Econnaborted => ConnectionAbortedError
    case Econnrefused(_) => ConnectionRefusedError
    case Econnreset => ConnectionResetError
    case Eintr => InterruptedError
    case Epipe => BrokenPipeError
    case Etimedout => TimeoutError
    case Enotsup(_, _) => NotImplementedError
    case Eio(_) => OSError
    case BadValue(_) => ValueError
  }

  /** `str()` of the raised exception. `FileNotFoundError(path, None)` is an
      `OSError` built from two arguments, which Python renders as
      `[Errno <path>] None`. */
  function Message(e: FsError): string {
    match e
    case Enoent(p) => "[Errno " + p + "] None"
    case Eacces(p) => "Permission denied: '" + p + "'"
    case Eexist(p) => "File exists: '" + p + "'"
    case Eisdir(p) => "Is a directory: '" + p + "'"
    case Enotdir(p) => "Not a directory: '" + p + "'"
    case Enotfile(p) => "Not a file: '" + p + "'"
    case Ewouldblock => "Operation would block"
    case Echild => "No child processes"
    case Econnaborted => "Connection aborted"
    case Econnrefused(a) => "Connection refused: '" + a + "'"
    case Econnreset => "Connection reset by peer"
    case Eintr => "Interrupted function call"
    case Epipe => "Broken pipe"
    case Etimedout => "Operation timed out"
    case Enotsup(p, op) => "Operation '" + op + "' not supported: '" + p + "'"
    // No helper in errors.py raises this; the text follows the pattern of
    // the others for the missing `raise_eio`.
    case Eio(p) => "Input/output error: '" + p + "'"
    case BadValue(m) => m
  }

  /** The argument list a helper was called with, with every argument blanked:
      two errors have the same shape exactly when they come from the same helper. */
  function Shape(e: FsError): FsError {
    match e
    case Enoent(_) => Enoent("")
    case Eacces(_) => Eacces("")
    case Eexist(_) => Eexist("")
    case Eisdir(_) => Eisdir("")
    case Enotdir(_) => Enotdir("")
    case Enotfile(_) => Enotfile("")
    case Econnrefused(_) => Econnrefused("")
    case Enotsup(_, _) => Enotsup("", "")
    case Eio(_) => Eio("")
    case BadValue(_) => BadValue("")
    case _ => e
  }

  /** Each helper raises its own exception class: the class alone tells which
      helper raised. */
  lemma ClassIdentifiesHelper(a: FsError, b: FsError)
    ensures Class(a) == Class(b) <==> Shape(a) == Shape(b)
  {
    match a
    case Enoent(_) =>
    case Eacces(_) =>
    case Eexist(_) =>
    case Eisdir(_) =>
    case Enotdir(_) =>
    case Enotfile(_) =>
    case Ewouldblock =>
    case Echild =>
    case Econnaborted =>
    case Econnrefused(_) =>
    case Econnreset =>
    case Eintr =>
    case Epipe =>
    case Etimedout =>
    case Enotsup(_, _) =>
    case Eio(_) =>
    case BadValue(_) =>
  }

  /** The middle of `msg` when it starts with `pre` and ends with `post`. */
  function Between(msg: string, pre: string, post: string): Option<string> {
    if |pre| + |post| <= |msg| && msg[..|pre|] == pre && msg[|msg| - |post|..] == post
    then Some(msg[|pre|..|msg| - |post|])
    else None
  }

  function Wrap(pre: string, msg: string, post: string, mk: string -> FsError): Option<FsError> {
    match Between(msg, pre, post)
    case None => None
    case Some(x) => Some(mk(x))
  }

  function Fixed(msg: string, text: string, e: FsError): Option<FsError> {
    if msg == text then Some(e) else None
  }

  /** Reads an error back from its class and message: the inverse of the pair
      (`Class`, `Message`). The operation name of a `NotImplementedError` ends
      at its first quote. */
  function ParseError(c: PyClass, msg: string): Option<FsError> {
    match c
    case FileNotFoundError => Wrap("[Errno ", msg, "] None", p => Enoent(p))
    case PermissionError => Wrap("Permission denied: '", msg, "'", p => Eacces(p))
    case FileExistsError => Wrap("File exists: '", msg, "'", p => Eexist(p))
    case IsADirectoryError => Wrap("Is a directory: '", msg, "'", p => Eisdir(p))
    case NotADirectoryError => Wrap("Not a directory: '", msg, "'", p => Enotdir(p))
    case NotAFileException => Wrap("Not a file: '", msg, "'", p => Enotfile(p))
    case BlockingIOError => Fixed(msg, "Operation would block", Ewouldblock)
    case ChildProcessError => Fixed(msg, "No child processes", Echild)
    case ConnectionAbortedError => Fixed(msg, "Connection aborted", Econnaborted)
    case ConnectionRefusedError => Wrap("Connection refused: '", msg, "'", a => Econnrefused(a))
    case ConnectionResetError => Fixed(msg, "Connection reset by peer", Econnreset)
    case InterruptedError => Fixed(msg, "Interrupted function call", Eintr)
    case BrokenPipeError => Fixed(msg, "Broken pipe", Epipe)
    case TimeoutError => Fixed(msg, "Operation timed out", Etimedout)
    case NotImplementedError => ParseUnsupportedMessage(msg)
    case OSError => Wrap("Input/output error: '", msg, "'", p => Eio(p))
    case ValueError => Some(BadValue(msg))
  }

  /** The not-supported message: the operation runs to the first quote after
      `Operation '`, the path sits between the fixed middle and the last quote. */
  function ParseUnsupportedMessage(msg: string): Option<FsError> {
    var pre := "Operation '";
    if |pre| <= |msg| && msg[..|pre|] == pre then
      var body := msg[|pre|..];
      match FirstIndex(body, '\'')
      case None => None
      case Some(i) => Wrap("' not supported: '", body[i..], "'", p => Enotsup(p, body[..i]))
    else None
  }

  lemma BetweenOf(pre: string, x: string, post: string)
    ensures Between(pre + x + post, pre, post) == Some(x)
  {
    var m := pre + x + post;
    assert m[..|pre|] == pre;
    assert m[|m| - |post|..] == post;
    assert m[|pre|..|m| - |post|] == x;
  }

  /** No information is lost in raising: class and message together determine
      the error, provided an operation name holds no quote. */
  lemma ParseMessage(e: FsError)
    requires e.Enotsup? ==> '\'' !in e.operation
    ensures ParseError(Class(e), Message(e)) == Some(e)
  {
    if e.Enotsup? {
      ParseUnsupported(e.path, e.operation);
    } else if e.Enoent? || e.Eacces? || e.Eexist? || e.Eisdir? || e.Enotdir? || e.Enotfile? {
      ParseFileError(e);
    } else if e.Econnrefused? || e.Eio? {
      ParseNetworkError(e);
    }
  }

  lemma ParseFileError(e: FsError)
    requires e.Enoent? || e.Eacces? || e.Eexist? || e.Eisdir? || e.Enotdir? || e.Enotfile?
    ensures ParseError(Class(e), Message(e)) == Some(e)
  {
    match e
    case Enoent(p) => BetweenOf("[Errno ", p, "] None");
    case Eacces(p) => BetweenOf("Permission denied: '", p, "'");
    case Eexist(p) => BetweenOf("File exists: '", p, "'");
    case Eisdir(p) => BetweenOf("Is a directory: '", p, "'");
    case Enotdir(p) => BetweenOf("Not a directory: '", p, "'");
    case Enotfile(p) => BetweenOf("Not a file: '", p, "'");
  }

  lemma ParseNetworkError(e: FsError)
    requires e.Econnrefused? || e.Eio?
    ensures ParseError(Class(e), Message(e)) == Some(e)
  {
    match e
    case Econnrefused(a) => BetweenOf("Connection refused: '", a, "'");
    case Eio(p) => BetweenOf("Input/output error: '", p, "'");
  }

  lemma ParseUnsupported(p: string, op: string)
    requires '\'' !in op
    ensures ParseError(NotImplementedError, Message(Enotsup(p, op))) == Some(Enotsup(p, op))
  {
    ReadUnsupported(p, op);
  }

  lemma ReadUnsupported(p: string, op: string)
    requires '\'' !in op
    ensures ParseUnsupportedMessage("Operation '" + op + "' not supported: '" + p + "'") == Some(Enotsup(p, op))
  {
    var pre := "Operation '";
    var tail := "' not supported: '" + p + "'";
    var msg := "Operation '" + op + "' not supported: '" + p + "'";
    var body := op + tail;
    assert msg == pre + body;
    assert msg[..|pre|] == pre && msg[|pre|..] == body;
    FirstIndexAt(op, '\'', tail);
    assert body[|op|..] == tail;
    assert body[..|op|] == op;
    BetweenOf("' not supported: '", p, "'");
    assert Wrap("' not supported: '", tail, "'", x => Enotsup(x, op)) == Some(Enotsup(p, op));
  }
}

=== FILE: findings.dfy ===
/** The core as written, where it departs from what it evidently intends.
    Each member here reproduces one defect in isolation (the others taken as
    fixed) together with an input that exhibits it; the rest of the model
    uses the intended behaviour. An interpreter error the authors did not
    mean to raise is a `Fault`. */
module Findings {
  import opened Wrappers
  import opened Errors
  import opened Paths
  import opened FsCore
  import opened Http
  import Local
  import Blob
  import RetryProperties

  datatype Fault =
    | AttributeError(name: string)
    | NameError(name: string)
    | TypeError(message: string)
    | UnboundLocalError(name: string)

  /** What a call does: return, raise one of the library's errors, or fail
      with an unintended interpreter error. */
  datatype PyOutcome<T> = Returned(value: T) | Raised(error: FsError) | Crashed(fault: Fault)

  function Lift<T>(r: Result<T, FsError>): (o: PyOutcome<T>)
    ensures r.Success? <==> o.Returned?
    ensures r.Success? ==> o.value == r.value
    ensures r.Failure? ==> o == Raised(r.error)
  {
    match r
    case Success(v) => Returned(v)
    case Failure(e) => Raised(e)
  }

  /** Looking a name up in a scope: `NameError` when nothing binds it. */
  function Resolve(scope: set<string>, name: string): (o: PyOutcome<()>)
    ensures o.Returned? <==> name in scope
    ensures o.Crashed? <==> name !in scope
  {
    if name in scope then Returned(()) else Crashed(NameError(name))
  }

  /** Reading attributes in order: `AttributeError` at the first one the
      object does not have. */
  function ReadAttributes(attrs: set<string>, names: seq<string>): (o: PyOutcome<()>)
    ensures o.Returned? <==> forall k :: 0 <= k < |names| ==> names[k] in attrs
    ensures o.Crashed? ==> o.fault.AttributeError? && o.fault.name in names && o.fault.name !in attrs
  {
    if |names| == 0 then Returned(())
    else if names[0] !in attrs then Crashed(AttributeError(names[0]))
    else
      var rest := ReadAttributes(attrs, names[1..]);
      assert forall k :: 1 <= k < |names| ==> names[k] == names[1..][k - 1];
      rest
  }

  // ---------------------------------------------------------------------
  // base.py:151 and 173: the transient codes are stored under one name and
  // read under another.

  /** The attributes `AFSWithHTTPClient.__init__` sets. */
  const ClientAttributes: set<string> :=
    {"_http_client", "_http_retry_max_attempts", "_http_retry_delay",
     "_http_retry_delay_factor", "_http_transitory_codes"}

  /** The settings `_send` reads before its loop, as written. */
  const SendSettingsAsWritten: seq<string> :=
    ["_http_retry_delay", "_http_retry_max_attempts", "_http_retry_delay_factor",
     "_http_transitory_http_codes"]

  const SendSettingsIntended: seq<string> :=
    ["_http_retry_delay", "_http_retry_max_attempts", "_http_retry_delay_factor",
     "_http_transitory_codes"]

  /** Every `_send`, whatever its arguments, stops at the fourth setting. */
  lemma TransientCodesMisnamed()
    ensures ReadAttributes(ClientAttributes, SendSettingsAsWritten)
         == Crashed(AttributeError("_http_transitory_http_codes"))
  {
  }

  /** With the name the constructor uses, the settings are read, and the
      transient set they hold decides whether a rejected status is retried. */
  lemma TransientCodesConsulted(p: Policy, accepted: Option<set<int>>, fspath: string,
                                transport: nat -> Outcome, code: int)
    requires transport(1) == Status(code) && !Accepted(accepted, code) && code !in p.transient
    ensures ReadAttributes(ClientAttributes, SendSettingsIntended) == Returned(())
    ensures Retry(p, accepted, fspath, transport).calls == 1
  {
    RetryProperties.NonTransientNotRetried(p, accepted, fspath, transport, code);
  }

  // ---------------------------------------------------------------------
  // base.py:157 and 186: the parameter is `accepted_code`, the loop reads
  // `accepted_codes`.

  /** The local names bound in `_send` when the first response is checked. */
  const SendLocals: set<string> :=
    {"self", "method", "url", "fspath", "accepted_code", "json", "headers", "authorize",
     "kwargs", "client", "auth_headers", "http_retry_delay", "http_retry_max_attempts",
     "http_retry_delay_factor", "http_transitory_http_codes", "call", "attempt", "res",
     "status_code"}

  /** The success test on a response, as written. */
  function AcceptedAsWritten(accepted: Option<set<int>>, code: int): (o: PyOutcome<bool>)
    ensures o == Crashed(NameError("accepted_codes"))
  {
    Crashed(NameError("accepted_codes"))
  }

  /** Nothing in `_send` binds the name, so even a 200 with no accepted codes
      given is not recognised. */
  lemma EveryResponseIsNameError()
    ensures Resolve(SendLocals, "accepted_codes") == Crashed(NameError("accepted_codes"))
    ensures AcceptedAsWritten(None, 200) == Crashed(NameError("accepted_codes"))
  {
  }

  // ---------------------------------------------------------------------
  // base.py:200-201: the loop sleeps on an attribute that does not exist,
  // and the delay it computes is never used.

  /** The loop as written: the outcome of the first attempt when the loop
      stops there; otherwise the sleep before the second attempt fails. */
  function RetryAsWritten(p: Policy, accepted: Option<set<int>>, fspath: string,
                          transport: nat -> Outcome): (o: PyOutcome<int>)
    ensures o.Crashed? <==> 1 < p.maxAttempts && Retryable(p, accepted, transport(1))
    ensures !o.Crashed? ==> o == Lift(Retry(p, accepted, fspath, transport).result)
  {
    if p.maxAttempts <= 1 || !Retryable(p, accepted, transport(1)) then
      Lift(Verdict(accepted, fspath, transport(1)))
    else
      match ReadAttributes(ClientAttributes, ["http_retry_delay"])
      case Crashed(f) => Crashed(f)
      case _ => Lift(Retry(p, accepted, fspath, transport).result)
  }

  /** A server that is briefly unavailable, then answers, is never retried:
      the request fails with `AttributeError` instead of succeeding on the
      second call. */
  lemma NoRetryEverHappens(fspath: string)
    ensures RetryAsWritten(DefaultPolicy, None, fspath, a => if a == 1 then Status(503) else Status(200))
         == Crashed(AttributeError("http_retry_delay"))
    ensures Retry(DefaultPolicy, None, fspath, a => if a == 1 then Status(503) else Status(200)).result
         == Success(200)
  {
    RetryProperties.SucceedsAfterRetries(DefaultPolicy, None, fspath,
      a => if a == 1 then Status(503) else Status(200), 1, 200);
  }

  /** With the attribute spelled as the constructor sets it, the loop would
      still sleep the first delay every time. */
  function SleepsAsWritten(p: Policy, n: nat): (r: seq<int>)
    ensures |r| == n
    ensures forall k :: 0 <= k < n ==> r[k] == p.delay
  {
    seq(n, _ => p.delay)
  }

  lemma BackoffNeverGrows()
    ensures SleepsAsWritten(DefaultPolicy, 3) == [2, 2, 2]
    ensures Delays(DefaultPolicy, 2, 3) == [2, 4, 7]
  {
    assert Delays(DefaultPolicy, 2, 3) == [2, 4, 7];
  }

  // ---------------------------------------------------------------------
  // base.py:179: the headers are passed positionally, where httpx's request
  // methods take only the URL.

  /** httpx's `get`, `put`, `post`, `delete`, ... accept one positional
      argument after `self`: the URL. */
  const HttpxPositional := 1

  function CallAsWritten(positional: nat): (o: PyOutcome<()>)
    ensures o.Crashed? <==> positional > HttpxPositional
  {
    if positional > HttpxPositional then
      Crashed(TypeError("takes 2 positional arguments but " + (if positional == 2 then "3" else "more") + " were given"))
    else Returned(())
  }

  /** `call(url, headers, **kwargs)` passes two. */
  lemma HeadersPassedPositionally()
    ensures CallAsWritten(2).Crashed?
  {
  }

  /** The intended call hands the prepared headers over by keyword. */
  lemma HeadersPassedByKeyword(p: Policy, url: string, accepted: Option<set<int>>,
                               headers: map<string, string>, auth: map<string, string>,
                               transport: nat -> Outcome)
    ensures CallAsWritten(1) == Returned(())
    ensures Send(p, url, None, accepted, headers, true, auth, None, None, transport).headers == headers + auth
  {
  }

  // ---------------------------------------------------------------------
  // base.py:157 and 164-165: without authorization, `setdefault` writes into
  // the dict `headers` names: the caller's, or the one default `{}` that
  // every call of `_send` shares.

  /** The headers a call sends, what the caller's dict holds afterwards, and
      what the shared default dict holds afterwards. */
  datatype HeaderEffect = HeaderEffect(sent: map<string, string>, callerDict: Option<map<string, string>>,
                                       sharedDefault: map<string, string>)

  /** Header preparation as written, `given` being the dict the caller passed,
      if any, and `shared` the default dict as earlier calls left it. */
  function PrepareHeadersAsWritten(shared: map<string, string>, given: Option<map<string, string>>,
                                   authorize: bool, auth: map<string, string>,
                                   hasContent: bool): (e: HeaderEffect)
    ensures e.sent == PrepareHeaders(if given.Some? then given.value else shared, authorize, auth, hasContent)
    ensures authorize ==> e.callerDict == given && e.sharedDefault == shared
    ensures !authorize && given.Some? ==> e.callerDict == Some(e.sent) && e.sharedDefault == shared
    ensures !authorize && given.None? ==> e.callerDict == None && e.sharedDefault == e.sent
    ensures !authorize && hasContent && given.None? ==> "Content-Type" in e.sharedDefault
  {
    var headers := if given.Some? then given.value else shared;
    var sent := PrepareHeaders(headers, authorize, auth, hasContent);
    if authorize then HeaderEffect(sent, given, shared)
    else if given.Some? then HeaderEffect(sent, Some(sent), shared)
    else HeaderEffect(sent, None, sent)
  }

  /** An unauthorized upload without headers leaves `Content-Type` in the
      shared default, so the next unauthorized bodiless call without headers
      sends it too; prepared afresh, that call sends no header at all. */
  lemma ContentTypeLeaks(auth: map<string, string>)
    ensures var first := PrepareHeadersAsWritten(map[], None, false, auth, true);
            var second := PrepareHeadersAsWritten(first.sharedDefault, None, false, auth, false);
            second.sent == map["Content-Type" := "application/octet-stream"]
    ensures PrepareHeaders(map[], false, auth, false) == map[]
  {
  }

  /** Prepared afresh for each call, `Content-Type` is sent exactly when the
      `content` keyword is passed, or the caller's or the authorization
      headers name it. */
  lemma ContentTypeOnlyWhenAsked(headers: map<string, string>, authorize: bool,
                                 auth: map<string, string>, hasContent: bool)
    ensures "Content-Type" in PrepareHeaders(headers, authorize, auth, hasContent)
        <==> hasContent || "Content-Type" in headers || (authorize && "Content-Type" in auth)
  {
  }

  // ---------------------------------------------------------------------
  // base.py:157 and 179: `json` is a parameter of `_send` and never reaches
  // the call.

  /** The body as written: only `content`, passed on in `kwargs`. */
  function BodyAsWritten(content: Option<string>, json: Option<string>): (b: Body)
    ensures !b.Json?
    ensures content.Some? <==> b.Content?
    ensures content.Some? ==> b.data == content.value
  {
    if content.Some? then Content(content.value) else NoBody
  }

  /** A JSON request is sent with no body at all. */
  lemma JsonBodyIsDropped(doc: string)
    ensures BodyAsWritten(None, Some(doc)) == NoBody
    ensures RequestBody(None, Some(doc)) == Json(doc)
  {
  }

  // ---------------------------------------------------------------------
  // base.py:12 and 102 (with azure_blob/__init__.py:27): `_make_node`
  // passes the hydration data to a constructor that does not take it.

  /** Positional parameters after `self` of the node class each backend
      instantiates: `_ALocalNode(fs, path, stats)`, and `_ANode(fs, path)`
      otherwise (the blob filesystem never sets its node class). */
  function NodeParameters(backend: Backend): nat {
    if backend == Local then 3 else 2
  }

  function MakeNodeAsWritten(fs: Fs, stat: StatFn, path: Path): (o: PyOutcome<Node>)
    ensures fs.backend == Local ==> o == Lift(MakeNode(fs, stat, path))
    ensures fs.backend != Local ==> o.Crashed? && o.fault.TypeError?
  {
    match Hydrate(fs, stat, path)
    case Failure(e) => Raised(e)
    case Success(data) =>
      if NodeParameters(fs.backend) == 3 then Returned(Node(path, data))
      else Crashed(TypeError("__init__() takes 3 positional arguments but 4 were given"))
  }

  /** No node of the plain or blob filesystem can be made, not even the root. */
  lemma NoBlobNodeCanBeMade(fs: Fs, stat: StatFn)
    requires fs.backend == AzureBlob
    ensures MakeNodeAsWritten(fs, stat, fs.root).Crashed?
    ensures MakeNode(fs, stat, fs.root) == Success(Node(fs.root, None))
  {
  }

  // ---------------------------------------------------------------------
  // base.py:89 and 96: `node_cache` is bound only when `cached` is true.

  function ResolveAsWritten(fs: Fs, stat: StatFn, path: Path, cached: bool): (o: PyOutcome<Node>)
    ensures cached ==> o == Lift(ResolvePath(fs, stat, path, cached).result)
    ensures !cached && MakeNode(fs, stat, path).Success? ==> o == Crashed(UnboundLocalError("node_cache"))
  {
    if cached then Lift(ResolvePath(fs, stat, path, cached).result)
    else
      match MakeNode(fs, stat, path)
      case Failure(e) => Raised(e)
      case Success(_) => Crashed(UnboundLocalError("node_cache"))
  }

  /** An uncached lookup of a path that exists never returns its node. */
  lemma UncachedLookupFails(fs: Fs, stat: StatFn, path: Path)
    requires fs.backend != Local && Coherent(fs, stat)
    ensures ResolveAsWritten(fs, stat, path, false).Crashed?
    ensures ResolvePath(fs, stat, path, false).result == Success(Node(path, None))
  {
  }

  // ---------------------------------------------------------------------
  // base.py:65: `LRUCache` takes no `ttl`.

  function NewFsAsWritten(backend: Backend, root: Option<Path>, cacheSize: int, cacheTtl: int): (o: PyOutcome<Fs>)
    ensures o.Crashed? <==> cacheSize > 0 && cacheTtl > 0
    ensures !o.Crashed? ==> o == Returned(NewFs(backend, root, cacheSize, cacheTtl))
  {
    if cacheSize > 0 && cacheTtl > 0 then Crashed(TypeError("__init__() got an unexpected keyword argument 'ttl'"))
    else Returned(NewFs(backend, root, cacheSize, cacheTtl))
  }

  /** The default cache settings cannot be constructed; the intended cache is
      on and empty. */
  lemma DefaultCacheCannotBeBuilt()
    ensures NewFsAsWritten(Plain, None, DefaultCacheSize, DefaultCacheTtl).Crashed?
    ensures NewFs(Plain, None, DefaultCacheSize, DefaultCacheTtl).cache == Cache(true, map[])
  {
  }

  // ---------------------------------------------------------------------
  // errors.py:4-47: every helper takes a leading `self` it is never given.

  /** Calling a helper declared with `params` parameters with `args`
      arguments. */
  function CallHelper(params: nat, args: nat, e: FsError): (o: PyOutcome<()>)
    ensures args < params ==> o.Crashed? && o.fault.TypeError?
    ensures args == params ==> o == Raised(e)
  {
    if args < params then Crashed(TypeError("missing 1 required positional argument"))
    else if args > params then Crashed(TypeError("takes " + (if params == 2 then "2" else "more") + " positional arguments"))
    else Raised(e)
  }

  /** `raise_enotdir(self._path)` in `require_dir`: declared with `self` and
      `path`, called with the path alone. */
  lemma RequireDirRaisesTypeError(fs: Fs, node: Node)
    requires !IsDir(fs, node)
    ensures CallHelper(2, 1, Enotdir(ToString(node.path))).Crashed?
    ensures CallHelper(1, 1, Enotdir(ToString(node.path))) == Lift(RequireDir(fs, node))
  {
  }

  // ---------------------------------------------------------------------
  // base.py:183 and 198: `raise_eio` is not defined in errors.py.

  /** The names `from anyfs.errors import *` brings in. */
  const ErrorHelpers: set<string> :=
    {"NotAFileException", "raise_enoent", "raise_eacces", "raise_eexist", "raise_eisdir",
     "raise_enotdir", "raise_enotfile", "raise_ewouldblock", "raise_echild",
     "raise_econnaborted", "raise_econnrefused", "raise_econnreset", "raise_eintr",
     "raise_epipe", "raise_etimedout", "raise_enotsup"}

  /** Every failure of the loop other than permission denied needs `raise_eio`. */
  lemma EioIsUndefined(fspath: string)
    ensures Resolve(ErrorHelpers, "raise_eio") == Crashed(NameError("raise_eio"))
    ensures Resolve(ErrorHelpers, "raise_eacces") == Returned(())
    ensures Retry(DefaultPolicy, None, fspath, _ => Status(503)).result == Failure(Eio(fspath))
  {
    RetryProperties.DefaultPolicyAgainstUnavailableServer(fspath);
  }

  // ---------------------------------------------------------------------
  // azure_blob/__init__.py:1-6 and 19: `raise_enotsup` is never imported.

  /** The names bound in the blob module. */
  const BlobModuleNames: set<string> :=
    {"anyio", "httpx", "_ANode", "_AFS", "DefaultAzureCredential", "_AAzureBlobNode", "AAzureBlobFS"}

  /** What `_AAzureBlobNode(fs, path).list()` reaches: line 19, where the
      name is unbound. */
  lemma BlobOperationsAreNameErrors(node: Node)
    ensures Resolve(BlobModuleNames, "raise_enotsup") == Crashed(NameError("raise_enotsup"))
    ensures Blob.List(node) == Failure(Enotsup(ToString(node.path), "list"))
  {
  }

  // ---------------------------------------------------------------------
  // azure_blob/__init__.py:27-36 with base.py:59: `AAzureBlobFS` never sets
  // `_node_class`, so its nodes are plain `_ANode`s.

  /** The methods `_ANode` defines (base.py:11-54); it has no `stat`. */
  const BaseNodeMethods: set<string> :=
    {"is_root", "is_dir", "is_file", "require_dir", "require_file", "parent", "go",
     "_child", "slurp", "list", "mkdir", "reload"}

  datatype BlobOp = ListOp | StatOp | SlurpOp

  function OpName(op: BlobOp): string {
    match op
    case ListOp => "list"
    case StatOp => "stat"
    case SlurpOp => "slurp"
  }

  /** A content operation on a blob filesystem's node as written: the node is
      an `_ANode`, so `stat` is a missing attribute, and `list` and `slurp`
      are the base class's not-supported defaults. */
  function BlobNodeAsWritten(node: Node, op: BlobOp): (o: PyOutcome<()>)
    ensures o.Crashed? <==> op == StatOp
    ensures o.Crashed? ==> o.fault == AttributeError("stat")
    ensures op != StatOp ==> o == Raised(Enotsup(ToString(node.path), OpName(op)))
  {
    match ReadAttributes(BaseNodeMethods, [OpName(op)])
    case Crashed(f) => Crashed(f)
    case _ => Lift(Unsupported<()>(node, OpName(op)))
  }

  /** `stat()` of a blob node is an `AttributeError`, where the intended
      `_AAzureBlobNode` reports the operation as not supported. */
  lemma BlobStatIsMissing(node: Node)
    ensures BlobNodeAsWritten(node, StatOp) == Crashed(AttributeError("stat"))
    ensures Blob.StatOf(node) == Failure(Enotsup(ToString(node.path), "stat"))
  {
  }

  // ---------------------------------------------------------------------
  // local.py:25: `os` has no `stat_object`.

  /** `os.stat_object(...)`: the `os` module has no such attribute. */
  function LocalStatAsWritten(node: Node): (o: PyOutcome<Stat>)
    ensures o == Crashed(AttributeError("stat_object"))
  {
    Crashed(AttributeError("stat_object"))
  }

  /** Even for a node made from a successful `os.stat`, `stat()` fails,
      where the intended answer is that stat result. */
  lemma LocalStatFails(fs: Fs, stat: StatFn, path: Path)
    requires fs.backend == Local && stat(path).Success?
    ensures MakeNode(fs, stat, path).Success?
    ensures LocalStatAsWritten(MakeNode(fs, stat, path).value).Crashed?
    ensures Local.StatOf(MakeNode(fs, stat, path).value) == stat(path).value
  {
    Local.StatIsTakenAtCreation(fs, stat, path);
  }
}

=== FILE: fscore.dfy ===
/** The node/filesystem protocol of `anyfs.aio.base`: `_ANode` with its
    capability queries and guards, `_AFS` with its root, node cache and the
    `_go` path walk.

    Objects become values. A `Node` is a path plus the data hydrated for it; it
    is always used together with the `Fs` that made it. Every operation that
    may resolve a path takes the filesystem and returns a `Step`: the result,
    the filesystem with its updated cache, and the paths hydrated on the way,
    so that cache hits and misses can be observed. The backend hook
    `_before_make_node` is `os.stat` for local filesystems, passed in as the
    function `stat`, and returns nothing for every other backend. */
module FsCore {
  import opened Wrappers
  import opened Paths
  import opened Errors
  import StatMode

  /** The concrete class pair in use: `_ANode`/`_AFS`, the local classes, or
      the Azure blob classes. */
  datatype Backend = Plain | Local | AzureBlob

  /** The part of an `os.stat_result` the core reads. */
  datatype Stat = Stat(mode: bv32)

  /** A node: its path and the data hydrated when it was made (`_stats` of a
      local node; nothing for the other backends). */
  datatype Node = Node(path: Path, stats: Option<Stat>)

  /** The node cache: disabled, or a map from resolved path to node. */
  datatype Cache = Cache(enabled: bool, entries: map<Path, Node>)

  datatype Fs = Fs(backend: Backend, root: Path, cache: Cache)

  /** An operation's outcome, the filesystem after it, and the paths it
      hydrated, in order. */
  datatype Step<T> = Step(result: Result<T, FsError>, fs: Fs, hydrated: seq<Path>)

  /** `os.stat` as the local backend sees it. */
  type StatFn = Path -> Result<Stat, FsError>

  const DefaultCacheSize := 1000
  const DefaultCacheTtl := 120

  /** `_AFS.__init__`: the root defaults to `/`; the cache exists only when
      both its size and its time-to-live are positive, and starts empty. */
  function NewFs(backend: Backend, root: Option<Path>, cacheSize: int, cacheTtl: int): (fs: Fs)
    ensures fs.backend == backend
    ensures root.None? ==> fs.root == SlashRoot
    ensures root.Some? ==> fs.root == root.value
    ensures fs.cache.enabled <==> cacheSize > 0 && cacheTtl > 0
    ensures fs.cache.entries == map[]
  {
    Fs(backend,
       if root.None? then SlashRoot else root.value,
       Cache(cacheSize > 0 && cacheTtl > 0, map[]))
  }

  /** `is_root`: the node sits at the filesystem's root path. */
  predicate IsRoot(fs: Fs, node: Node) {
    node.path == fs.root
  }

  /** `is_dir`: `S_ISDIR(st_mode)` for local nodes, false for the others. */
  predicate IsDir(fs: Fs, node: Node) {
    match fs.backend
    case Local => node.stats.Some? && StatMode.IsDirMode(node.stats.value.mode)
    case _ => false
  }

  /** `is_file`: `S_ISREG(st_mode)` for local nodes, false for the others. */
  predicate IsFile(fs: Fs, node: Node) {
    match fs.backend
    case Local => node.stats.Some? && StatMode.IsRegMode(node.stats.value.mode)
    case _ => false
  }

  /** `require_dir`: fails with not-a-directory exactly when `is_dir` is false. */
  function RequireDir(fs: Fs, node: Node): (r: Result<(), FsError>)
    ensures r.Success? <==> IsDir(fs, node)
    ensures r.Failure? ==> r.error == Enotdir(ToString(node.path))
  {
    if IsDir(fs, node) then Success(()) else Failure(Enotdir(ToString(node.path)))
  }

  /** `require_file`: fails with not-a-file exactly when `is_file` is false. */
  function RequireFile(fs: Fs, node: Node): (r: Result<(), FsError>)
    ensures r.Success? <==> IsFile(fs, node)
    ensures r.Failure? ==> r.error == Enotfile(ToString(node.path))
  {
    if IsFile(fs, node) then Success(()) else Failure(Enotfile(ToString(node.path)))
  }

  /** The default `slurp`, `list` and `mkdir` of `_ANode`. */
  function Unsupported<T>(node: Node, operation: string): Result<T, FsError> {
    Failure(Enotsup(ToString(node.path), operation))
  }

  /** A node nobody overrides these for answers every content operation with
      "not supported", naming the operation and the node's path, without a guard. */
  lemma DefaultOperationsUnsupported(node: Node, operation: string)
    requires operation in {"slurp", "list", "mkdir"}
    ensures Unsupported<seq<string>>(node, operation).Failure?
    ensures var e := Unsupported<seq<string>>(node, operation).error;
            Class(e) == NotImplementedError && e.path == ToString(node.path) && e.operation == operation
  {
  }

  /** `_before_make_node`. */
  function Hydrate(fs: Fs, stat: StatFn, path: Path): (r: Result<Option<Stat>, FsError>)
    ensures fs.backend != Local ==> r == Success(None)
    ensures fs.backend == Local && stat(path).Success? ==> r == Success(Some(stat(path).value))
    ensures fs.backend == Local && stat(path).Failure? ==> r == Failure(stat(path).error)
  {
    match fs.backend
    case Local =>
      (match stat(path)
       case Success(s) => Success(Some(s))
       case Failure(e) => Failure(e))
    case _ => Success(None)
  }

  /** `_make_node`: hydrate, then build the node at `path` from the data;
      hydration errors propagate. */
  function MakeNode(fs: Fs, stat: StatFn, path: Path): (r: Result<Node, FsError>)
    ensures r.Success? <==> Hydrate(fs, stat, path).Success?
    ensures r.Success? ==> r.value == Node(path, Hydrate(fs, stat, path).value)
    ensures r.Failure? ==> r.error == Hydrate(fs, stat, path).error
  {
    match Hydrate(fs, stat, path)
    case Success(data) => Success(Node(path, data))
    case Failure(e) => Failure(e)
  }

  /** Every cached node is the node a fresh resolution of its path would make. */
  predicate Coherent(fs: Fs, stat: StatFn) {
    && (!fs.cache.enabled ==> fs.cache.entries == map[])
    && forall p :: p in fs.cache.entries ==> MakeNode(fs, stat, p) == Success(fs.cache.entries[p])
  }

  predicate SameConfig(a: Fs, b: Fs) {
    a.backend == b.backend && a.root == b.root && a.cache.enabled == b.cache.enabled
  }

  /** `_node`: the cache hit/miss/store rule. With the cache enabled and
      `cached` set, a stored node is returned without hydrating. Otherwise the
      path is hydrated once; an error leaves the cache alone, a node is stored
      under its path (when the cache is enabled) and returned. */
  function ResolvePath(fs: Fs, stat: StatFn, path: Path, cached: bool): (s: Step<Node>)
    ensures SameConfig(s.fs, fs)
    ensures cached && fs.cache.enabled && path in fs.cache.entries ==>
              s == Step(Success(fs.cache.entries[path]), fs, [])
    ensures !(cached && fs.cache.enabled && path in fs.cache.entries) ==>
              && s.hydrated == [path]
              && s.result == MakeNode(fs, stat, path)
              && (s.result.Failure? || !fs.cache.enabled ==> s.fs == fs)
              && (s.result.Success? && fs.cache.enabled ==>
                    s.fs.cache.entries == fs.cache.entries[path := s.result.value])
  {
    if cached && fs.cache.enabled && path in fs.cache.entries then
      Step(Success(fs.cache.entries[path]), fs, [])
    else
      match MakeNode(fs, stat, path)
      case Failure(e) => Step(Failure(e), fs, [path])
      case Success(node) =>
        var fs' := if fs.cache.enabled then fs.(cache := fs.cache.(entries := fs.cache.entries[path := node])) else fs;
        Step(Success(node), fs', [path])
  }

  /** `root()`. */
  function Root(fs: Fs, stat: StatFn): (s: Step<Node>)
    ensures SameConfig(s.fs, fs)
    ensures s.hydrated == [] || s.hydrated == [fs.root]
    ensures s.result.Failure? ==> s.hydrated == [fs.root] && s.fs == fs
    ensures s.hydrated == [] ==> s.fs == fs && s.result.Success?
  {
    ResolvePath(fs, stat, fs.root, true)
  }

  /** `parent()`: the root is its own parent and costs nothing; any other
      node's parent is resolved at `path.parent`. */
  function ParentNode(fs: Fs, stat: StatFn, node: Node): (s: Step<Node>)
    ensures IsRoot(fs, node) ==> s == Step(Success(node), fs, [])
    ensures !IsRoot(fs, node) ==> s == ResolvePath(fs, stat, Parent(node.path), true)
  {
    if IsRoot(fs, node) then Step(Success(node), fs, [])
    else ResolvePath(fs, stat, Parent(node.path), true)
  }

  /** `_child(name)`: guarded by `require_dir`, then resolves `path / name`. */
  function ChildNode(fs: Fs, stat: StatFn, node: Node, name: string): (s: Step<Node>)
    ensures !IsDir(fs, node) ==> s == Step(Failure(Enotdir(ToString(node.path))), fs, [])
    ensures IsDir(fs, node) ==> s == ResolvePath(fs, stat, Child(node.path, name), true)
  {
    match RequireDir(fs, node)
    case Failure(e) => Step(Failure(e), fs, [])
    case Success(_) => ResolvePath(fs, stat, Child(node.path, name), true)
  }

  /** One segment of the `_go` loop. */
  function Segment(fs: Fs, stat: StatFn, node: Node, part: string): (s: Step<Node>)
    ensures SameConfig(s.fs, fs)
    ensures |s.hydrated| <= 1
    ensures part == "." || (part == ".." && IsRoot(fs, node)) ==> s == Step(Success(node), fs, [])
    ensures part != "." && part != ".." && !IsDir(fs, node) ==>
              s == Step(Failure(Enotdir(ToString(node.path))), fs, [])
  {
    if part == ".." then ParentNode(fs, stat, node)
    else if part == "." then Step(Success(node), fs, [])
    else ChildNode(fs, stat, node, part)
  }

  /** The `_go` loop: segments left to right, stopping at the first failure. */
  function Walk(fs: Fs, stat: StatFn, node: Node, parts: seq<string>): (s: Step<Node>)
    ensures SameConfig(s.fs, fs)
    decreases |parts|
  {
    if |parts| == 0 then Step(Success(node), fs, [])
    else
      var first := Segment(fs, stat, node, parts[0]);
      if first.result.Failure? then first
      else
        var rest := Walk(first.fs, stat, first.result.value, parts[1..]);
        Step(rest.result, rest.fs, first.hydrated + rest.hydrated)
  }

  /** The `ValueError` that `relative_to` raises. */
  function NotUnderRoot(p: Path, root: Path): (e: FsError)
    ensures Class(e) == ValueError
  {
    BadValue("'" + ToString(p) + "' is not in the subpath of '" + ToString(root) + "'")
  }

  /** `_AFS._go` on an already constructed path: an absolute path restarts at
      the root and walks only its part below the root path. */
  function FsGo(fs: Fs, stat: StatFn, node: Node, path: Path): (s: Step<Node>)
    ensures SameConfig(s.fs, fs)
  {
    if path.absolute then
      var r := Root(fs, stat);
      if r.result.Failure? then r
      else
        match RelativeTo(path, r.result.value.path)
        case None => Step(Failure(NotUnderRoot(path, r.result.value.path)), r.fs, r.hydrated)
        case Some(rel) =>
          var w := Walk(r.fs, stat, r.result.value, rel.parts);
          Step(w.result, w.fs, r.hydrated + w.hydrated)
    else Walk(fs, stat, node, path.parts)
  }

  /** `_ANode.go(expr)`: guarded by `require_dir`; the expression is first
      turned into a `PurePosixPath`. */
  function Go(fs: Fs, stat: StatFn, node: Node, expr: string): (s: Step<Node>)
    ensures !IsDir(fs, node) ==> s == Step(Failure(Enotdir(ToString(node.path))), fs, [])
    ensures IsDir(fs, node) ==> s == FsGo(fs, stat, node, Parse(expr))
  {
    match RequireDir(fs, node)
    case Failure(e) => Step(Failure(e), fs, [])
    case Success(_) => FsGo(fs, stat, node, Parse(expr))
  }

  /** Removing cache entries (the cache library's LRU and TTL eviction, whose
      choice of victims is not modelled): entries only disappear. */
  function Evict(fs: Fs, victims: set<Path>): (r: Fs)
    ensures SameConfig(r, fs)
    ensures r.cache.entries.Keys == fs.cache.entries.Keys - victims
    ensures forall p :: p in r.cache.entries ==> r.cache.entries[p] == fs.cache.entries[p]
  {
    fs.(cache := fs.cache.(entries := fs.cache.entries - victims))
  }
}

=== FILE: http.dfy ===
/** `AFSWithHTTPClient._send` of `anyfs.aio.base`: header preparation and the
    retry loop that classifies each physical attempt.

    The transport is a function from the attempt number (1, 2, ...) to what
    that physical call produced: a transport error (`httpx.RequestError`) or a
    response status. The sleeps between attempts are recorded instead of
    performed. The delay factor is the rational `factorNum / factorDen`, and
    the float arithmetic `int(delay * factor + 1)` is done exactly, truncating
    toward zero as Python's `int()` does. */
module Http {
  import opened Wrappers
  import opened Errors

  type Positive = n: int | n > 0 witness 1

  datatype Outcome = TransportError | Status(code: int)

  /** The client's retry settings. */
  datatype Policy = Policy(
    timeout: int,
    maxAttempts: int,
    delay: int,
    factorNum: int,
    factorDen: Positive,
    transient: set<int>)

  const Forbidden := 403

  /** `default_http_transitory_codes`: request timeout, too many requests,
      internal server error, bad gateway, service unavailable, gateway timeout. */
  const DefaultTransient: set<int> := {408, 429, 500, 502, 503, 504}

  /** The module defaults: timeout 10, at most 4 attempts, first delay 2,
      growth factor 1.5. */
  const DefaultPolicy := Policy(10, 4, 2, 3, 2, DefaultTransient)

  /** What one logical request did: its outcome (the accepted status, or the
      error raised), the number of physical calls, and the delays slept. */
  datatype Attempts = Attempts(result: Result<int, FsError>, calls: nat, sleeps: seq<int>)

  /** The success rule: below 300 when no accepted codes are given, otherwise
      membership in them. */
  predicate Accepted(accepted: Option<set<int>>, code: int) {
    match accepted
    case None => code < 300
    case Some(codes) => code in codes
  }

  /** An attempt worth repeating: a transport error, or a rejected status that
      is transient. */
  predicate Retryable(p: Policy, accepted: Option<set<int>>, o: Outcome) {
    match o
    case TransportError => true
    case Status(c) => !Accepted(accepted, c) && c in p.transient
  }

  /** What an attempt the loop stops at means for the caller. */
  function Verdict(accepted: Option<set<int>>, fspath: string, o: Outcome): (r: Result<int, FsError>)
    ensures r.Success? <==> o.Status? && Accepted(accepted, o.code)
    ensures r.Success? ==> r.value == o.code
    ensures r == Failure(Eacces(fspath)) <==> o == Status(403) && !Accepted(accepted, 403)
    ensures r.Failure? && r != Failure(Eacces(fspath)) ==> r == Failure(Eio(fspath))
  {
    match o
    case TransportError => Failure(Eio(fspath))
    case Status(c) =>
      if Accepted(accepted, c) then Success(c)
      else if c == Forbidden then Failure(Eacces(fspath))
      else Failure(Eio(fspath))
  }

  /** Python's `int()` of the quotient `a / b`: truncation toward zero. */
  function TruncDiv(a: int, b: Positive): (q: int)
    ensures a >= 0 ==> q * b <= a < q * b + b
    ensures a < 0 ==> q * b >= a > q * b - b
  {
    if a >= 0 then a / b else -((-a) / b)
  }

  /** `int(delay * factor + 1)`. */
  function NextDelay(p: Policy, delay: int): int {
    TruncDiv(delay * p.factorNum + p.factorDen, p.factorDen)
  }

  /** The first `n` delays of the backoff schedule that starts at `delay`. */
  function Delays(p: Policy, delay: int, n: nat): (r: seq<int>)
    ensures |r| == n
    decreases n
  {
    if n == 0 then [] else [delay] + Delays(p, NextDelay(p, delay), n - 1)
  }

  /** The `while True` loop from attempt `attempt` on, with `delay` the delay
      to sleep before the next attempt. It stops at the first attempt that is
      the last allowed one or not worth repeating, and that attempt alone
      decides the outcome; every earlier attempt was retried after sleeping
      the next delay of the schedule. */
  function RetryFrom(p: Policy, accepted: Option<set<int>>, fspath: string,
                     transport: nat -> Outcome, attempt: nat, delay: int): (r: Attempts)
    requires attempt >= 1
    ensures attempt <= r.calls
    ensures r.calls <= if attempt < p.maxAttempts then p.maxAttempts else attempt
    ensures forall a :: attempt <= a < r.calls ==> a < p.maxAttempts && Retryable(p, accepted, transport(a))
    ensures r.calls >= p.maxAttempts || !Retryable(p, accepted, transport(r.calls))
    ensures r.result == Verdict(accepted, fspath, transport(r.calls))
    ensures r.sleeps == Delays(p, delay, r.calls - attempt)
    decreases if attempt < p.maxAttempts then p.maxAttempts - attempt else 0
  {
    var last := attempt >= p.maxAttempts;
    var retry :=
      match transport(attempt)
      case TransportError =>
        if last then Some(Failure(Eio(fspath))) else None
      case Status(code) =>
        if Accepted(accepted, code) then Some(Success(code))
        else if last || code !in p.transient then
          (if code == Forbidden then Some(Failure(Eacces(fspath))) else Some(Failure(Eio(fspath))))
        else None;
    if retry.Some? then Attempts(retry.value, attempt, [])
    else
      var rest := RetryFrom(p, accepted, fspath, transport, attempt + 1, NextDelay(p, delay));
      Attempts(rest.result, rest.calls, [delay] + rest.sleeps)
  }

  /** The whole loop: attempt 1, first delay from the policy. */
  function Retry(p: Policy, accepted: Option<set<int>>, fspath: string, transport: nat -> Outcome): (r: Attempts)
    ensures 1 <= r.calls
    ensures r.calls <= if p.maxAttempts > 1 then p.maxAttempts else 1
    ensures forall a :: 1 <= a < r.calls ==> Retryable(p, accepted, transport(a))
    ensures r.calls >= p.maxAttempts || !Retryable(p, accepted, transport(r.calls))
    ensures r.result == Verdict(accepted, fspath, transport(r.calls))
    ensures r.sleeps == Delays(p, p.delay, r.calls - 1)
  {
    RetryFrom(p, accepted, fspath, transport, 1, p.delay)
  }

  /** The headers `_send` hands to the transport: the caller's headers, then
      the authorization headers over them, then `Content-Type` defaulted to
      `application/octet-stream` when a body is given. */
  function PrepareHeaders(headers: map<string, string>, authorize: bool, auth: map<string, string>,
                          hasContent: bool): (h: map<string, string>)
    ensures h.Keys == headers.Keys + (if authorize then auth.Keys else {})
                      + (if hasContent then {"Content-Type"} else {})
    ensures authorize ==> forall k :: k in auth ==> h[k] == auth[k]
    ensures forall k :: k in headers && !(authorize && k in auth) ==> h[k] == headers[k]
    ensures hasContent && "Content-Type" !in headers && !(authorize && "Content-Type" in auth) ==>
              h["Content-Type"] == "application/octet-stream"
  {
    var merged := if authorize then headers + auth else headers;
    if hasContent && "Content-Type" !in merged then merged["Content-Type" := "application/octet-stream"]
    else merged
  }

  /** The body of a request: none, raw `content`, or a JSON document. */
  datatype Body = NoBody | Content(data: string) | Json(doc: string)

  /** The body httpx builds from `content` and `json`: raw content takes
      precedence over a JSON document. */
  function RequestBody(content: Option<string>, json: Option<string>): (b: Body)
    ensures b.Content? <==> content.Some?
    ensures b.Json? <==> content.None? && json.Some?
    ensures b.Content? ==> b.data == content.value
    ensures b.Json? ==> b.doc == json.value
  {
    if content.Some? then Content(content.value)
    else if json.Some? then Json(json.value)
    else NoBody
  }

  /** The request `_send` makes and what came of it. */
  datatype Sent = Sent(headers: map<string, string>, body: Body, attempts: Attempts)

  /** `_send`: the prepared headers and body go out on every attempt, and a
      failure reports the given file path, or the URL when none is given.
      `content` records the keyword argument: `None` when it is not passed,
      `Some(None)` when it is passed as `None`. Its presence alone defaults
      `Content-Type`; only a value makes a body. */
  function Send(p: Policy, url: string, fspath: Option<string>, accepted: Option<set<int>>,
                headers: map<string, string>, authorize: bool, auth: map<string, string>,
                content: Option<Option<string>>, json: Option<string>, transport: nat -> Outcome): (s: Sent)
    ensures var path := if fspath.Some? then fspath.value else url;
            s.attempts.result.Failure? ==>
              s.attempts.result.error == Eio(path) || s.attempts.result.error == Eacces(path)
    ensures s.attempts.result.Success? <==>
              transport(s.attempts.calls).Status? && Accepted(accepted, transport(s.attempts.calls).code)
    ensures 1 <= s.attempts.calls <= if p.maxAttempts > 1 then p.maxAttempts else 1
    ensures s.headers.Keys == headers.Keys + (if authorize then auth.Keys else {})
                              + (if content.Some? then {"Content-Type"} else {})
    ensures authorize ==> forall k :: k in auth ==> s.headers[k] == auth[k]
    ensures forall k :: k in headers && !(authorize && k in auth) ==> s.headers[k] == headers[k]
    ensures content.Some? && "Content-Type" !in headers && !(authorize && "Content-Type" in auth) ==>
              s.headers["Content-Type"] == "application/octet-stream"
    ensures content.Some? && content.value.Some? ==> s.body == Content(content.value.value)
    ensures (content.None? || content.value.None?) && json.Some? ==> s.body == Json(json.value)
    ensures (content.None? || content.value.None?) && json.None? ==> s.body == NoBody
  {
    var path := if fspath.None? then url else fspath.value;
    var data := if content.Some? then content.value else None;
    Sent(PrepareHeaders(headers, authorize, auth, content.Some?), RequestBody(data, json),
         Retry(p, accepted, path, transport))
  }
}

=== FILE: local.dfy ===
/** `anyfs.aio.local`: the local filesystem. Its nodes carry the `os.stat`
    result taken when they were made, answer `is_dir`/`is_file` from its mode
    bits, and guard `list` and `slurp` with `require_dir`/`require_file`
    before any disk access. The filesystem never caches nodes.

    The two disk operations, `os.listdir` and `open(...).read()`, are
    functions passed in, and every call made to them is recorded, so that
    "nothing is read when the guard fails" can be stated. */
module Local {
  import opened Wrappers
  import opened Errors
  import opened Paths
  import opened FsCore

  datatype OpenMode = Text(encoding: string) | Binary

  datatype IoCall = ListDir(path: string) | Open(path: string, mode: OpenMode)

  /** What the file read produced: decoded text or raw bytes. */
  datatype Content = TextContent(text: string) | Bytes(data: seq<bv8>)

  /** A result together with the disk calls made to produce it. */
  datatype Io<T> = Io(result: Result<T, FsError>, calls: seq<IoCall>)

  type ListDirFn = string -> Result<seq<string>, FsError>
  type ReadFn = (string, OpenMode) -> Result<Content, FsError>

  const DefaultEncoding := "utf-8"

  /** `open` mode for an encoding: text (`"r"`) with that encoding, binary
      (`"rb"`) when the encoding is `None`. */
  function ModeFor(encoding: Option<string>): (m: OpenMode)
    ensures m.Binary? <==> encoding.None?
    ensures encoding.Some? ==> m == Text(encoding.value)
  {
    match encoding
    case None => Binary
    case Some(e) => Text(e)
  }

  /** `list()`: not-a-directory without touching the disk, otherwise one
      `listdir` of the node's path. */
  function List(fs: Fs, node: Node, listdir: ListDirFn): (r: Io<seq<string>>)
    requires fs.backend == Local
    ensures r.calls == [] <==> !IsDir(fs, node)
    ensures !IsDir(fs, node) ==> r.result == Failure(Enotdir(ToString(node.path)))
    ensures IsDir(fs, node) ==> r.calls == [ListDir(ToString(node.path))]
                                && r.result == listdir(ToString(node.path))
  {
    match RequireDir(fs, node)
    case Failure(e) => Io(Failure(e), [])
    case Success(_) =>
      var p := ToString(node.path);
      Io(listdir(p), [ListDir(p)])
  }

  /** `slurp(encoding)`: not-a-file without touching the disk, otherwise one
      read of the node's path in the mode the encoding selects. */
  function Slurp(fs: Fs, node: Node, encoding: Option<string>, read: ReadFn): (r: Io<Content>)
    requires fs.backend == Local
    ensures r.calls == [] <==> !IsFile(fs, node)
    ensures !IsFile(fs, node) ==> r.result == Failure(Enotfile(ToString(node.path)))
    ensures IsFile(fs, node) ==> r.calls == [Open(ToString(node.path), ModeFor(encoding))]
                                 && r.result == read(ToString(node.path), ModeFor(encoding))
  {
    match RequireFile(fs, node)
    case Failure(e) => Io(Failure(e), [])
    case Success(_) =>
      var p := ToString(node.path);
      var mode := ModeFor(encoding);
      Io(read(p, mode), [Open(p, mode)])
  }

  /** `slurp()` with its default argument reads text as UTF-8. */
  lemma DefaultSlurpIsUtf8Text(fs: Fs, node: Node, read: ReadFn)
    requires fs.backend == Local && IsFile(fs, node)
    ensures Slurp(fs, node, Some(DefaultEncoding), read).calls == [Open(ToString(node.path), Text("utf-8"))]
  {
  }

  /** A directory is never read as a file and a file is never listed: the
      two guards exclude each other, whatever the mode bits. */
  lemma GuardsExclude(fs: Fs, node: Node, listdir: ListDirFn, encoding: Option<string>, read: ReadFn)
    requires fs.backend == Local
    ensures List(fs, node, listdir).calls == [] || Slurp(fs, node, encoding, read).calls == []
  {
    if node.stats.Some? {
      StatMode.NeverBoth(node.stats.value.mode);
    }
  }

  /** `stat()`: the stat result the node was made with. Local nodes always
      carry one. */
  function StatOf(node: Node): Stat
    requires node.stats.Some?
  {
    node.stats.value
  }

  /** A local node reports the `os.stat` result of its path taken when the
      node was made, and only a successful `os.stat` makes a node. */
  lemma StatIsTakenAtCreation(fs: Fs, stat: StatFn, path: Path)
    requires fs.backend == Local
    ensures MakeNode(fs, stat, path).Success? <==> stat(path).Success?
    ensures MakeNode(fs, stat, path).Success? ==>
              && MakeNode(fs, stat, path).value.stats.Some?
              && StatOf(MakeNode(fs, stat, path).value) == stat(path).value
  {
  }

  /** The default root: the system drive on Windows, `/` elsewhere. */
  function DefaultRoot(osName: string): (r: string)
    ensures osName == "nt" ==> r == "C:\\"
    ensures osName != "nt" ==> r == "/"
  {
    if osName == "nt" then "C:\\" else "/"
  }

  /** `ALocalFS(root)` on a POSIX system: the root defaults to `/`, and the
      cache size is 0, so the cache is off. */
  function NewLocalFs(root: Option<string>): (fs: Fs)
    ensures fs.backend == Local
    ensures fs.root == Parse(if root.Some? then root.value else "/")
    ensures !fs.cache.enabled && fs.cache.entries == map[]
  {
    var r := if root.Some? then root.value else DefaultRoot("posix");
    NewFs(Local, Some(Parse(r)), 0, DefaultCacheTtl)
  }

  /** Without a cache, every resolution of a path stats it again, and nothing
      is ever stored: a node always reflects the disk at the time it was made. */
  lemma LocalNeverCaches(root: Option<string>, stat: StatFn, path: Path)
    ensures var fs := NewLocalFs(root);
            var first := ResolvePath(fs, stat, path, true);
            && first.fs == fs
            && first.hydrated == [path]
            && ResolvePath(first.fs, stat, path, true).hydrated == [path]
            && (first.result.Success? <==> stat(path).Success?)
            && (first.result.Success? ==> first.result.value == Node(path, Some(stat(path).value)))
  {
  }
}

=== FILE: paths.dfy ===
/** The part of `pathlib.PurePosixPath` the core relies on: a path is an
    optional `/` anchor and a sequence of segments. Construction from a string
    splits on `/` and drops empty and `.` segments, as pathlib does; `..` is
    kept, since pathlib never resolves it lexically. */
module Paths {
  import opened Wrappers
  import opened Strings

  datatype Path = Path(absolute: bool, parts: seq<string>)

  /** `PurePosixPath("/")`, the default root of every filesystem. */
  const SlashRoot := Path(true, [])

  /** A segment as pathlib stores it. */
  predicate IsSegment(s: string) {
    s != "" && s != "." && '/' !in s
  }

  predicate WellFormed(p: Path) {
    forall i :: 0 <= i < |p.parts| ==> IsSegment(p.parts[i])
  }

  /** `p / name` for a single segment `name`. */
  function Child(p: Path, name: string): Path {
    Path(p.absolute, p.parts + [name])
  }

  /** `p.parent`: drops the last segment; the anchor `/` and the empty
      relative path `.` are their own parents. */
  function Parent(p: Path): (r: Path)
    ensures r.absolute == p.absolute
    ensures |p.parts| == 0 ==> r == p
    ensures |p.parts| > 0 ==> |r.parts| == |p.parts| - 1 && Child(r, p.parts[|p.parts| - 1]) == p
  {
    if |p.parts| == 0 then p else Path(p.absolute, p.parts[..|p.parts| - 1])
  }

  /** `p` lies at or below `base`. */
  predicate Under(p: Path, base: Path) {
    p.absolute == base.absolute && base.parts <= p.parts
  }

  /** `p.relative_to(base)`, or `None` where pathlib raises `ValueError`. */
  function RelativeTo(p: Path, base: Path): (r: Option<Path>)
    ensures r.Some? <==> Under(p, base)
    ensures r.Some? ==> !r.value.absolute && base.parts + r.value.parts == p.parts
  {
    if Under(p, base) then Some(Path(false, p.parts[|base.parts|..])) else None
  }

  /** `str(p)`. */
  function ToString(p: Path): string {
    if p.absolute then "/" + Join("/", p.parts)
    else if |p.parts| == 0 then "."
    else Join("/", p.parts)
  }

  /** `s.split("/")`. */
  function Split(s: string): (r: seq<string>)
    ensures |r| >= 1
    ensures forall i :: 0 <= i < |r| ==> '/' !in r[i]
  {
    if |s| == 0 then [""]
    else
      var rest := Split(s[1..]);
      if s[0] == '/' then [""] + rest else [[s[0]] + rest[0]] + rest[1..]
  }

  /** Drops the empty and `.` pieces left by splitting. */
  function Segments(xs: seq<string>): (r: seq<string>)
    ensures forall i :: 0 <= i < |r| ==> r[i] in xs && r[i] != "" && r[i] != "."
  {
    if |xs| == 0 then []
    else if xs[0] == "" || xs[0] == "." then Segments(xs[1..])
    else [xs[0]] + Segments(xs[1..])
  }

  /** `PurePosixPath(s)`. */
  function Parse(s: string): (p: Path)
    ensures p.absolute <==> |s| > 0 && s[0] == '/'
    ensures WellFormed(p)
  {
    Path(|s| > 0 && s[0] == '/', Segments(Split(s)))
  }

  lemma {:induction false} SplitWithoutSlash(x: string)
    requires '/' !in x
    ensures Split(x) == [x]
  {
    if |x| > 0 {
      SplitWithoutSlash(x[1..]);
      assert x == [x[0]] + x[1..];
    }
  }

  lemma {:induction false} SplitAtSlash(x: string, y: string)
    requires '/' !in x
    ensures Split(x + "/" + y) == [x] + Split(y)
  {
    if |x| == 0 {
      assert x + "/" + y == "/" + y;
      assert ("/" + y)[1..] == y;
    } else {
      assert (x + "/" + y)[1..] == x[1..] + "/" + y;
      SplitAtSlash(x[1..], y);
      assert x == [x[0]] + x[1..];
    }
  }

  lemma {:induction false} SplitJoin(xs: seq<string>)
    requires |xs| > 0
    requires forall i :: 0 <= i < |xs| ==> '/' !in xs[i]
    ensures Split(Join("/", xs)) == xs
  {
    if |xs| == 1 {
      SplitWithoutSlash(xs[0]);
    } else {
      SplitJoin(xs[1..]);
      SplitAtSlash(xs[0], Join("/", xs[1..]));
      assert xs == [xs[0]] + xs[1..];
    }
  }

  lemma {:induction false} SegmentsKeep(xs: seq<string>)
    requires forall i :: 0 <= i < |xs| ==> IsSegment(xs[i])
    ensures Segments(xs) == xs
  {
    if |xs| > 0 {
      SegmentsKeep(xs[1..]);
      assert xs == [xs[0]] + xs[1..];
    }
  }

  /** Printing a path and constructing a path from the text gives it back. */
  lemma ParseToString(p: Path)
    requires WellFormed(p)
    ensures Parse(ToString(p)) == p
  {
    var s := ToString(p);
    if |p.parts| == 0 {
      if p.absolute {
        assert s == "/";
        assert Split(s) == ["", ""];
      } else {
        assert s == ".";
        SplitWithoutSlash(".");
      }
    } else {
      SplitJoin(p.parts);
      SegmentsKeep(p.parts);
      if p.absolute {
        SplitAtSlash("", Join("/", p.parts));
        assert s == "" + "/" + Join("/", p.parts);
        assert Segments([""] + p.parts) == Segments(p.parts);
      } else {
        assert p.parts[0] != "" && '/' !in p.parts[0];
        assert Join("/", p.parts)[0] != '/' by {
          JoinStartsWithFirst(p.parts);
        }
      }
    }
  }

  lemma JoinStartsWithFirst(xs: seq<string>)
    requires |xs| > 0 && xs[0] != ""
    ensures |Join("/", xs)| > 0 && Join("/", xs)[0] == xs[0][0]
  {
  }
}

=== FILE: resolution.dfy ===
/** Properties of path resolution in `anyfs.aio.base`: what `_go` does with
    `.` and `..`, that an absolute walk ignores its starting node and never
    leaves the root, and that the node cache never changes an answer, only
    the number of hydrations. */
module Resolution {
  import opened Wrappers
  import opened Paths
  import opened Errors
  import opened FsCore

  /** The segments of `parts` other than `.`. */
  function WithoutDots(parts: seq<string>): (r: seq<string>)
    ensures forall i :: 0 <= i < |r| ==> r[i] != "."
    ensures |r| <= |parts|
  {
    if |parts| == 0 then []
    else if parts[0] == "." then WithoutDots(parts[1..])
    else [parts[0]] + WithoutDots(parts[1..])
  }

  /** `.` segments are no-ops wherever they appear: the walk with them is the
      walk without them, down to the cache and the hydrations. */
  lemma {:induction false} DotsAreNoOps(fs: Fs, stat: StatFn, node: Node, parts: seq<string>)
    ensures Walk(fs, stat, node, parts) == Walk(fs, stat, node, WithoutDots(parts))
    decreases |parts|
  {
    if |parts| > 0 {
      if parts[0] == "." {
        DotsAreNoOps(fs, stat, node, parts[1..]);
        var rest := Walk(fs, stat, node, parts[1..]);
        assert [] + rest.hydrated == rest.hydrated;
      } else {
        var first := Segment(fs, stat, node, parts[0]);
        if first.result.Success? {
          DotsAreNoOps(first.fs, stat, first.result.value, parts[1..]);
        }
        assert ([parts[0]] + WithoutDots(parts[1..]))[1..] == WithoutDots(parts[1..]);
      }
    }
  }

  /** `..` at the root stays at the root, without hydrating, however often it
      is repeated. */
  lemma {:induction false} UpFromRootStays(fs: Fs, stat: StatFn, node: Node, k: nat)
    requires IsRoot(fs, node)
    ensures Walk(fs, stat, node, seq(k, _ => "..")) == Step(Success(node), fs, [])
  {
    if k > 0 {
      UpFromRootStays(fs, stat, node, k - 1);
      assert seq(k, _ => "..")[1..] == seq(k - 1, _ => "..");
    }
  }

  lemma SameBackendSameNode(a: Fs, b: Fs, stat: StatFn, path: Path)
    requires a.backend == b.backend
    ensures MakeNode(a, stat, path) == MakeNode(b, stat, path)
  {
  }

  /** Resolving a path keeps the cache coherent. */
  lemma ResolveKeepsCoherent(fs: Fs, stat: StatFn, path: Path, cached: bool)
    requires Coherent(fs, stat)
    ensures Coherent(ResolvePath(fs, stat, path, cached).fs, stat)
  {
    var s := ResolvePath(fs, stat, path, cached);
    forall p | p in s.fs.cache.entries
      ensures MakeNode(s.fs, stat, p) == Success(s.fs.cache.entries[p])
    {
      SameBackendSameNode(s.fs, fs, stat, p);
    }
  }

  /** With coherent caches, what `_node` returns does not depend on what the
      cache holds. */
  lemma ResolveIgnoresCache(a: Fs, b: Fs, stat: StatFn, path: Path, cached: bool)
    requires Coherent(a, stat) && Coherent(b, stat) && a.backend == b.backend
    ensures ResolvePath(a, stat, path, cached).result == ResolvePath(b, stat, path, cached).result
    ensures ResolvePath(a, stat, path, cached).result == MakeNode(a, stat, path)
  {
    SameBackendSameNode(a, b, stat, path);
  }

  lemma SegmentKeepsCoherent(fs: Fs, stat: StatFn, node: Node, part: string)
    requires Coherent(fs, stat)
    ensures Coherent(Segment(fs, stat, node, part).fs, stat)
  {
    if part == ".." {
      if !IsRoot(fs, node) {
        ResolveKeepsCoherent(fs, stat, Parent(node.path), true);
      }
    } else if part != "." && IsDir(fs, node) {
      ResolveKeepsCoherent(fs, stat, Child(node.path, part), true);
    }
  }

  lemma SegmentIgnoresCache(a: Fs, b: Fs, stat: StatFn, node: Node, part: string)
    requires Coherent(a, stat) && Coherent(b, stat) && a.backend == b.backend && a.root == b.root
    ensures Segment(a, stat, node, part).result == Segment(b, stat, node, part).result
  {
    if part == ".." {
      if !IsRoot(a, node) {
        ResolveIgnoresCache(a, b, stat, Parent(node.path), true);
      }
    } else if part != "." && IsDir(a, node) {
      ResolveIgnoresCache(a, b, stat, Child(node.path, part), true);
    }
  }

  /** Walking keeps the cache coherent. */
  lemma {:induction false} WalkKeepsCoherent(fs: Fs, stat: StatFn, node: Node, parts: seq<string>)
    requires Coherent(fs, stat)
    ensures Coherent(Walk(fs, stat, node, parts).fs, stat)
    decreases |parts|
  {
    if |parts| > 0 {
      SegmentKeepsCoherent(fs, stat, node, parts[0]);
      var first := Segment(fs, stat, node, parts[0]);
      if first.result.Success? {
        WalkKeepsCoherent(first.fs, stat, first.result.value, parts[1..]);
      }
    }
  }

  /** The cache is transparent: two filesystems that differ only in what their
      coherent caches hold walk every path to the same node or the same error. */
  lemma {:induction false} CacheIsTransparent(a: Fs, b: Fs, stat: StatFn, node: Node, parts: seq<string>)
    requires Coherent(a, stat) && Coherent(b, stat) && a.backend == b.backend && a.root == b.root
    ensures Walk(a, stat, node, parts).result == Walk(b, stat, node, parts).result
    decreases |parts|
  {
    if |parts| > 0 {
      SegmentIgnoresCache(a, b, stat, node, parts[0]);
      SegmentKeepsCoherent(a, stat, node, parts[0]);
      SegmentKeepsCoherent(b, stat, node, parts[0]);
      var fa := Segment(a, stat, node, parts[0]);
      var fb := Segment(b, stat, node, parts[0]);
      if fa.result.Success? {
        CacheIsTransparent(fa.fs, fb.fs, stat, fa.result.value, parts[1..]);
      }
    }
  }

  /** In particular a walk over a coherent cache answers as a walk with the
      cache switched off, where every resolution hydrates. */
  lemma CachedWalkAnswersAsUncached(fs: Fs, stat: StatFn, node: Node, parts: seq<string>)
    requires Coherent(fs, stat)
    ensures Walk(fs, stat, node, parts).result
         == Walk(fs.(cache := Cache(false, map[])), stat, node, parts).result
  {
    CacheIsTransparent(fs, fs.(cache := Cache(false, map[])), stat, node, parts);
  }

  /** Each segment hydrates at most once, so a walk hydrates at most as many
      paths as it has segments. */
  lemma {:induction false} AtMostOneHydrationPerSegment(fs: Fs, stat: StatFn, node: Node, parts: seq<string>)
    ensures |Walk(fs, stat, node, parts).hydrated| <= |parts|
    decreases |parts|
  {
    if |parts| > 0 {
      var first := Segment(fs, stat, node, parts[0]);
      if first.result.Success? {
        AtMostOneHydrationPerSegment(first.fs, stat, first.result.value, parts[1..]);
      }
    }
  }

  /** A node produced by a coherent cache sits at the path it was asked for. */
  lemma ResolvedAtPath(fs: Fs, stat: StatFn, path: Path, cached: bool)
    requires Coherent(fs, stat)
    ensures ResolvePath(fs, stat, path, cached).result.Success? ==>
              ResolvePath(fs, stat, path, cached).result.value.path == path
  {
  }

  lemma ParentStaysUnderRoot(root: Path, p: Path)
    requires Under(p, root) && p != root
    ensures Under(Parent(p), root)
  {
    assert root.parts <= Parent(p).parts;
  }

  /** A walk that starts at or below the root stays there: `..` at the root is
      a fixed point and a child is deeper than its parent. */
  lemma {:induction false} WalkStaysUnderRoot(fs: Fs, stat: StatFn, node: Node, parts: seq<string>)
    requires Coherent(fs, stat) && Under(node.path, fs.root)
    ensures Walk(fs, stat, node, parts).result.Success? ==>
              Under(Walk(fs, stat, node, parts).result.value.path, fs.root)
    decreases |parts|
  {
    if |parts| > 0 {
      var first := Segment(fs, stat, node, parts[0]);
      SegmentKeepsCoherent(fs, stat, node, parts[0]);
      if first.result.Success? {
        if parts[0] == ".." {
          if !IsRoot(fs, node) {
            ParentStaysUnderRoot(fs.root, node.path);
            ResolvedAtPath(fs, stat, Parent(node.path), true);
          }
        } else if parts[0] != "." {
          ResolvedAtPath(fs, stat, Child(node.path, parts[0]), true);
        }
        WalkStaysUnderRoot(first.fs, stat, first.result.value, parts[1..]);
      }
    }
  }

  /** Enough `..` segments from any node at or below the root reach the root,
      whenever they succeed. */
  lemma {:induction false} EnoughUpsReachRoot(fs: Fs, stat: StatFn, node: Node, k: nat)
    requires Coherent(fs, stat) && Under(node.path, fs.root)
    requires |node.path.parts| - |fs.root.parts| <= k
    ensures Walk(fs, stat, node, seq(k, _ => "..")).result.Success? ==>
              Walk(fs, stat, node, seq(k, _ => "..")).result.value.path == fs.root
    decreases k
  {
    if IsRoot(fs, node) {
      UpFromRootStays(fs, stat, node, k);
    } else {
      assert |node.path.parts| > |fs.root.parts|;
      var up := seq(k, _ => "..");
      assert up[0] == "..";
      assert up[1..] == seq(k - 1, _ => "..");
      var first := Segment(fs, stat, node, "..");
      SegmentKeepsCoherent(fs, stat, node, "..");
      ParentStaysUnderRoot(fs.root, node.path);
      ResolvedAtPath(fs, stat, Parent(node.path), true);
      if first.result.Success? {
        EnoughUpsReachRoot(first.fs, stat, first.result.value, k - 1);
      }
    }
  }

  /** An absolute expression restarts at the root: its outcome, cache and
      hydrations included, is the same from any starting directory. */
  lemma AbsoluteIgnoresStart(fs: Fs, stat: StatFn, a: Node, b: Node, expr: string)
    requires IsDir(fs, a) && IsDir(fs, b) && Parse(expr).absolute
    ensures Go(fs, stat, a, expr) == Go(fs, stat, b, expr)
  {
  }

  /** An absolute path outside the root fails with `ValueError` once the root
      has been resolved. */
  lemma AbsoluteOutsideRootFails(fs: Fs, stat: StatFn, node: Node, path: Path)
    requires Coherent(fs, stat) && path.absolute && !Under(path, fs.root)
    requires Root(fs, stat).result.Success?
    ensures FsGo(fs, stat, node, path).result == Failure(NotUnderRoot(path, fs.root))
  {
  }

  /** An absolute path at or below the root walks exactly its segments below
      the root, starting from the root node. */
  lemma AbsoluteWalksBelowRoot(fs: Fs, stat: StatFn, node: Node, path: Path)
    requires Coherent(fs, stat) && path.absolute && Under(path, fs.root)
    requires Root(fs, stat).result.Success?
    ensures var r := Root(fs, stat);
            FsGo(fs, stat, node, path).result
              == Walk(r.fs, stat, r.result.value, path.parts[|fs.root.parts|..]).result
  {
  }

  /** `go(".")` on a directory is the directory itself, at no cost. */
  lemma GoDotIsIdentity(fs: Fs, stat: StatFn, node: Node)
    requires IsDir(fs, node)
    ensures Go(fs, stat, node, ".") == Step(Success(node), fs, [])
  {
    SplitWithoutSlash(".");
  }

  /** `go` and `_child` on a node that is not a directory fail before
      resolving anything. */
  lemma NavigationNeedsDirectory(fs: Fs, stat: StatFn, node: Node, expr: string, name: string)
    requires !IsDir(fs, node)
    ensures Go(fs, stat, node, expr) == Step(Failure(Enotdir(ToString(node.path))), fs, [])
    ensures ChildNode(fs, stat, node, name) == Step(Failure(Enotdir(ToString(node.path))), fs, [])
  {
  }

  /** A cache hit does not consult the disk: it returns the node, and so the
      stat data, captured when the entry was stored. */
  lemma HitIgnoresDisk(fs: Fs, s1: StatFn, s2: StatFn, path: Path)
    requires fs.cache.enabled && path in fs.cache.entries
    ensures ResolvePath(fs, s1, path, true) == ResolvePath(fs, s2, path, true)
    ensures ResolvePath(fs, s1, path, true).hydrated == []
  {
  }

  /** With the cache disabled, resolving the same path twice hydrates it twice
      and never fills the cache. */
  lemma DisabledCacheRehydrates(fs: Fs, stat: StatFn, path: Path)
    requires !fs.cache.enabled
    ensures var first := ResolvePath(fs, stat, path, true);
            var second := ResolvePath(first.fs, stat, path, true);
            first.fs == fs && first.hydrated + second.hydrated == [path, path]
  {
  }

  /** With the cache enabled, a successful resolution is followed by hits:
      the second resolution hydrates nothing and returns the same node. */
  lemma EnabledCacheHits(fs: Fs, stat: StatFn, path: Path)
    requires fs.cache.enabled
    ensures var first := ResolvePath(fs, stat, path, true);
            var second := ResolvePath(first.fs, stat, path, true);
            first.result.Success? ==> second.hydrated == [] && second.result == first.result
  {
  }

  /** Eviction keeps the cache coherent. */
  lemma EvictKeepsCoherent(fs: Fs, stat: StatFn, victims: set<Path>)
    requires Coherent(fs, stat)
    ensures Coherent(Evict(fs, victims), stat)
  {
    var r := Evict(fs, victims);
    forall p | p in r.cache.entries
      ensures MakeNode(r, stat, p) == Success(r.cache.entries[p])
    {
      SameBackendSameNode(r, fs, stat, p);
    }
  }

  /** Backends without a stat hook always resolve: hydration yields no data,
      and a node is still made. */
  lemma NonLocalAlwaysResolves(fs: Fs, stat: StatFn, path: Path, cached: bool)
    requires fs.backend != Local && Coherent(fs, stat)
    ensures ResolvePath(fs, stat, path, cached).result == Success(Node(path, None))
  {
  }

  /** The node `root()` returns is the root node, and it is its own parent;
      any other node's parent is resolved at its parent path. */
  lemma RootIsItsOwnParent(fs: Fs, stat: StatFn, node: Node)
    requires Coherent(fs, stat)
    ensures var r := Root(fs, stat);
            r.result.Success? ==> IsRoot(r.fs, r.result.value)
                                  && ParentNode(r.fs, stat, r.result.value) == Step(r.result, r.fs, [])
    ensures node.path != fs.root ==> ParentNode(fs, stat, node) == ResolvePath(fs, stat, Parent(node.path), true)
  {
    ResolvedAtPath(fs, stat, fs.root, true);
  }

  /** Nodes of the base class are neither directories nor files, so both
      guards fail, naming the node's path. */
  lemma BaseNodesAreNeither(fs: Fs, node: Node)
    requires fs.backend == Plain
    ensures !IsDir(fs, node) && !IsFile(fs, node)
    ensures RequireDir(fs, node) == Failure(Enotdir(ToString(node.path)))
    ensures RequireFile(fs, node) == Failure(Enotfile(ToString(node.path)))
  {
  }
}

=== FILE: retry.dfy ===
/** Consequences of the `_send` retry loop for callers: how many physical
    calls a scripted transport sees, which outcome is reported, and how the
    backoff delay grows. */
module RetryProperties {
  import opened Wrappers
  import opened Errors
  import opened Http

  /** A success returns at once: no attempt after an accepted response. */
  lemma AcceptedResponseEndsLoop(p: Policy, accepted: Option<set<int>>, fspath: string,
                                 transport: nat -> Outcome, a: nat, code: int)
    requires 1 <= a && transport(a) == Status(code) && Accepted(accepted, code)
    ensures Retry(p, accepted, fspath, transport).calls <= a
  {
  }

  /** `k` retryable failures followed by an accepted status, within the
      attempt budget, cost exactly `k + 1` calls and succeed. */
  lemma SucceedsAfterRetries(p: Policy, accepted: Option<set<int>>, fspath: string,
                             transport: nat -> Outcome, k: nat, code: int)
    requires k < p.maxAttempts
    requires forall a :: 1 <= a <= k ==> Retryable(p, accepted, transport(a))
    requires transport(k + 1) == Status(code) && Accepted(accepted, code)
    ensures Retry(p, accepted, fspath, transport).calls == k + 1
    ensures Retry(p, accepted, fspath, transport).result == Success(code)
    ensures Retry(p, accepted, fspath, transport).sleeps == Delays(p, p.delay, k)
  {
    AcceptedResponseEndsLoop(p, accepted, fspath, transport, k + 1, code);
  }

  /** A transport that keeps failing in a retryable way is called exactly
      `maxAttempts` times, and the request fails. */
  lemma PersistentFailureExhausts(p: Policy, accepted: Option<set<int>>, fspath: string,
                                  transport: nat -> Outcome)
    requires p.maxAttempts >= 1
    requires forall a :: 1 <= a <= p.maxAttempts ==> Retryable(p, accepted, transport(a))
    ensures Retry(p, accepted, fspath, transport).calls == p.maxAttempts
    ensures Retry(p, accepted, fspath, transport).result.Failure?
    ensures |Retry(p, accepted, fspath, transport).sleeps| == p.maxAttempts - 1
  {
  }

  /** A rejected status outside the transient set is never retried: one call,
      permission denied for 403, an I/O error otherwise. */
  lemma NonTransientNotRetried(p: Policy, accepted: Option<set<int>>, fspath: string,
                               transport: nat -> Outcome, code: int)
    requires transport(1) == Status(code) && !Accepted(accepted, code) && code !in p.transient
    ensures Retry(p, accepted, fspath, transport).calls == 1
    ensures Retry(p, accepted, fspath, transport).sleeps == []
    ensures Retry(p, accepted, fspath, transport).result
         == if code == 403 then Failure(Eacces(fspath)) else Failure(Eio(fspath))
  {
  }

  /** The request succeeds exactly when the last call got an accepted status,
      and reports permission denied exactly when that call got a rejected 403. */
  lemma OutcomeOfLastCall(p: Policy, accepted: Option<set<int>>, fspath: string, transport: nat -> Outcome)
    ensures var r := Retry(p, accepted, fspath, transport);
            && (r.result.Success? <==> transport(r.calls).Status? && Accepted(accepted, transport(r.calls).code))
            && (r.result == Failure(Eacces(fspath)) <==>
                  transport(r.calls) == Status(403) && !Accepted(accepted, 403))
  {
  }

  lemma MultiplyMonotone(d: int, lo: int, hi: int)
    requires d >= 0 && lo <= hi
    ensures d * lo <= d * hi
  {
  }

  /** With a factor of at least 1 the next delay is strictly longer. */
  lemma NextDelayGrows(p: Policy, delay: int)
    requires p.factorNum >= p.factorDen && delay >= 0
    ensures NextDelay(p, delay) > delay
  {
    var a := delay * p.factorNum + p.factorDen;
    MultiplyMonotone(delay, p.factorDen, p.factorNum);
    assert a >= (delay + 1) * p.factorDen;
    var q := TruncDiv(a, p.factorDen);
    if q <= delay {
      MultiplyMonotone(p.factorDen, q + 1, delay + 1);
    }
  }

  /** With a factor of at least 1 and a non-negative first delay, the delays
      slept between attempts strictly increase. */
  lemma {:induction false} DelaysIncrease(p: Policy, delay: int, n: nat)
    requires p.factorNum >= p.factorDen && delay >= 0
    ensures forall i :: 0 < i < n ==> Delays(p, delay, n)[i - 1] < Delays(p, delay, n)[i]
    decreases n
  {
    if n > 1 {
      NextDelayGrows(p, delay);
      DelaysIncrease(p, NextDelay(p, delay), n - 1);
      var ds := Delays(p, delay, n);
      assert ds[1..] == Delays(p, NextDelay(p, delay), n - 1);
      forall i | 0 < i < n
        ensures ds[i - 1] < ds[i]
      {
        if i > 1 {
          assert ds[i - 1] == ds[1..][i - 2];
          assert ds[i] == ds[1..][i - 1];
        }
      }
    }
  }

  /** `content=None` passed explicitly still defaults `Content-Type`, since
      the test is on the keyword's presence, yet the request has no body. */
  lemma ExplicitNoContentIsTyped(p: Policy, url: string, headers: map<string, string>,
                                 transport: nat -> Outcome)
    requires "Content-Type" !in headers
    ensures var s := Send(p, url, None, None, headers, false, map[], Some(None), None, transport);
            s.headers["Content-Type"] == "application/octet-stream" && s.body == NoBody
  {
  }

  /** With the defaults, a server answering 503 forever is called four times,
      with sleeps of 2, 4 and 7 between the calls, and the request reports an
      I/O error on its path. */
  lemma DefaultPolicyAgainstUnavailableServer(fspath: string)
    ensures var r := Retry(DefaultPolicy, None, fspath, _ => Status(503));
            r.calls == 4 && r.sleeps == [2, 4, 7] && r.result == Failure(Eio(fspath))
  {
    PersistentFailureExhausts(DefaultPolicy, None, fspath, _ => Status(503));
    assert Delays(DefaultPolicy, 2, 3) == [2, 4, 7];
  }
}

=== FILE: sharedkey.dfy ===
/** `AzureSharedKeyAuth.auth_flow` of the Azure blob backend: the Azure
    Storage "Shared Key" authorization scheme. It stamps the request with
    `x-ms-date` (and `x-ms-version` when missing), builds the canonical string
    to sign from the method, eleven standard headers, the `x-ms-` headers and
    the canonicalized resource, and sets `Authorization` to
    `SharedKey <account>:<signature>`.

    Headers are the `items()` view of an httpx `Headers` object: lower-case
    names, in insertion order, each name once. The URL arrives already split
    into its path and its parsed query (`parse_qs`: each key once, with its
    values). The HMAC-SHA256 signature with its base64 encoding is the
    function `sign`, the current time the string `date`. */
module SharedKey {
  import opened Wrappers
  import opened Strings

  type Headers = seq<(string, string)>

  /** A parsed query: each key with its list of values. */
  type Query = seq<(string, seq<string>)>

  datatype Request = Request(verb: string, path: string, query: Query, headers: Headers)

  const ApiVersion := "2019-07-07"

  /** `headers.get(name)` for a lower-case `name`. */
  function Lookup(h: Headers, name: string): (r: Option<string>)
    ensures r.None? <==> forall i :: 0 <= i < |h| ==> h[i].0 != name
    ensures r.Some? ==> exists i :: 0 <= i < |h| && h[i] == (name, r.value)
  {
    if |h| == 0 then None
    else if h[0].0 == name then Some(h[0].1)
    else
      var r := Lookup(h[1..], name);
      assert forall i :: 1 <= i < |h| ==> h[i] == h[1..][i - 1];
      r
  }

  /** `headers.get(name, "")`. */
  function Get(h: Headers, name: string): string {
    match Lookup(h, name)
    case Some(v) => v
    case None => ""
  }

  /** `headers[name] = value`: replaces the value in place, or appends. */
  function Set(h: Headers, name: string, value: string): (r: Headers)
    ensures Lookup(r, name) == Some(value)
    ensures forall m :: m != name ==> Lookup(r, m) == Lookup(h, m)
  {
    if |h| == 0 then [(name, value)]
    else if h[0].0 == name then [(name, value)] + h[1..]
    else [h[0]] + Set(h[1..], name, value)
  }

  /** `headers.setdefault(name, value)`. */
  function SetDefault(h: Headers, name: string, value: string): (r: Headers)
    ensures Lookup(h, name).Some? ==> r == h
    ensures Lookup(h, name).None? ==> Lookup(r, name) == Some(value)
    ensures forall m :: m != name ==> Lookup(r, m) == Lookup(h, m)
  {
    if Lookup(h, name).Some? then h else Set(h, name, value)
  }

  function Name(e: (string, string)): string {
    e.0
  }

  /** What `Headers.items()` yields: lower-case names, each once. */
  predicate WellFormed(h: Headers) {
    && (forall i :: 0 <= i < |h| ==> IsLower(h[i].0))
    && DistinctKeys(h, Name)
  }

  /** The header is one of the `x-ms-` headers, whatever its case. */
  predicate IsMsHeader(name: string) {
    "x-ms-" <= Lower(name)
  }

  lemma LowerIdempotent(s: string)
    ensures IsLower(Lower(s))
  {
  }

  /** The `x-ms-` headers with lower-cased names and stripped values, in
      header order. */
  function MsHeaders(h: Headers): (r: seq<(string, string)>)
    ensures forall k :: 0 <= k < |r| ==> "x-ms-" <= r[k].0 && IsLower(r[k].0)
    ensures forall i :: 0 <= i < |h| && IsMsHeader(h[i].0) ==> (Lower(h[i].0), Strip(h[i].1)) in r
    ensures forall e :: e in r ==> exists i :: 0 <= i < |h| && IsMsHeader(h[i].0) && e == (Lower(h[i].0), Strip(h[i].1))
  {
    if |h| == 0 then []
    else
      var rest := MsHeaders(h[1..]);
      assert forall i :: 1 <= i < |h| ==> h[i] == h[1..][i - 1];
      if IsMsHeader(h[0].0) then
        LowerIdempotent(h[0].0);
        [(Lower(h[0].0), Strip(h[0].1))] + rest
      else rest
  }

  /** An entry drawn from the later headers never has the first header's name. */
  lemma TailEntryNameDiffers(h: Headers, e: (string, string))
    requires WellFormed(h) && |h| > 0 && e in MsHeaders(h[1..])
    ensures e.0 != h[0].0
  {
    var i :| 0 <= i < |h[1..]| && IsMsHeader(h[1..][i].0) && e == (Lower(h[1..][i].0), Strip(h[1..][i].1));
    assert h[1..][i] == h[i + 1];
  }

  /** Well-formed headers give at most one `x-ms-` entry per name. */
  lemma {:induction false} MsHeadersDistinct(h: Headers)
    requires WellFormed(h)
    ensures DistinctKeys(MsHeaders(h), Name)
  {
    if |h| > 0 {
      assert WellFormed(h[1..]) by {
        assert forall i :: 1 <= i < |h| ==> h[i] == h[1..][i - 1];
      }
      MsHeadersDistinct(h[1..]);
      var rest := MsHeaders(h[1..]);
      if IsMsHeader(h[0].0) {
        forall k | 0 <= k < |rest|
          ensures rest[k].0 != Lower(h[0].0)
        {
          TailEntryNameDiffers(h, rest[k]);
        }
      }
    }
  }

  /** The canonicalized headers as entries: sorted by name. */
  function CanonicalEntries(h: Headers): (r: seq<(string, string)>)
    ensures SortedBy(r, Name)
    ensures multiset(r) == multiset(MsHeaders(h))
  {
    SortBy(MsHeaders(h), Name)
  }

  /** `"name:value\n"` for each entry. */
  function HeaderLines(entries: seq<(string, string)>): string {
    if |entries| == 0 then ""
    else entries[0].0 + ":" + entries[0].1 + "\n" + HeaderLines(entries[1..])
  }

  function CanonicalHeaders(h: Headers): string {
    HeaderLines(CanonicalEntries(h))
  }

  function Key(e: (string, seq<string>)): string {
    e.0
  }

  /** `"\n" + key.lower() + ":" + ",".join(sorted(values))` for each entry. */
  function QueryLines(q: Query): string {
    if |q| == 0 then ""
    else "\n" + Lower(q[0].0) + ":" + Join(",", Sort(q[0].1)) + QueryLines(q[1..])
  }

  /** `"/" + account + path` (an empty path standing for `/`), followed by the
      query entries in the order of their original keys. */
  function CanonicalResource(account: string, path: string, query: Query): string {
    var base := "/" + account + (if path == "" then "/" else path);
    if |query| > 0 then base + QueryLines(SortBy(query, Key)) else base
  }

  /** The Content-Length slot: empty for `"0"` and for a missing header. */
  function ContentLength(h: Headers): (r: string)
    ensures r == "" <==> Lookup(h, "content-length").None? || Lookup(h, "content-length") == Some("0")
                         || Lookup(h, "content-length") == Some("")
    ensures r != "" ==> Lookup(h, "content-length") == Some(r)
  {
    var v := Get(h, "content-length");
    if v == "0" then "" else v
  }

  /** The eleven standard headers signed after the verb, in their fixed
      order. */
  const SlotNames: seq<string> := [
    "content-encoding", "content-language", "content-length", "content-md5",
    "content-type", "date", "if-modified-since", "if-match", "if-none-match",
    "if-unmodified-since", "range"]

  /** The value signed for one standard header. The Date slot is always empty
      because `x-ms-date` is signed instead. */
  function Slot(h: Headers, name: string): (r: string)
    ensures name == "date" ==> r == ""
    ensures name != "date" && name != "content-length" ==> r == Get(h, name)
    ensures name == "content-length" ==> r == ContentLength(h)
  {
    if name == "date" then ""
    else if name == "content-length" then ContentLength(h)
    else Get(h, name)
  }

  /** The values signed for the standard headers: the Date slot (index 5) is
      empty, the Content-Length slot (index 2) follows its own rule, and
      every other slot is the header's value, or empty when it is missing. */
  function HeaderSlots(h: Headers): (r: seq<string>)
    ensures |r| == 11
    ensures r[5] == ""
    ensures r[2] == "" <==> Lookup(h, "content-length").None? || Lookup(h, "content-length") == Some("0")
                            || Lookup(h, "content-length") == Some("")
    ensures r[2] != "" ==> Lookup(h, "content-length") == Some(r[2])
    ensures forall i :: 0 <= i < |r| && i != 2 && i != 5 ==>
              (Lookup(h, SlotNames[i]).None? ==> r[i] == "")
              && (Lookup(h, SlotNames[i]).Some? ==> r[i] == Lookup(h, SlotNames[i]).value)
  {
    seq(|SlotNames|, i requires 0 <= i < |SlotNames| => Slot(h, SlotNames[i]))
  }

  /** Each string followed by a newline. */
  function Terminated(xs: seq<string>): string {
    if |xs| == 0 then "" else xs[0] + "\n" + Terminated(xs[1..])
  }

  function StringToSign(req: Request, account: string): string {
    Terminated([req.verb] + HeaderSlots(req.headers))
      + CanonicalHeaders(req.headers)
      + CanonicalResource(account, req.path, req.query)
  }

  /** The `Authorization` header value. */
  function Authorization(account: string, signature: string): string {
    "SharedKey " + account + ":" + signature
  }

  /** The headers after the date stamp: `x-ms-date` overwritten with the
      current time, `x-ms-version` defaulted, everything else kept. */
  function Stamp(h: Headers, date: string): (r: Headers)
    ensures Lookup(r, "x-ms-date") == Some(date)
    ensures Lookup(r, "x-ms-version")
         == if Lookup(h, "x-ms-version").Some? then Lookup(h, "x-ms-version") else Some(ApiVersion)
    ensures forall m :: m != "x-ms-date" && m != "x-ms-version" ==> Lookup(r, m) == Lookup(h, m)
  {
    SetDefault(Set(h, "x-ms-date", date), "x-ms-version", ApiVersion)
  }

  /** `auth_flow`: the request that goes out. The signature covers the
      stamped headers, and the authorization header is added over them. */
  function AuthFlow(req: Request, account: string, key: seq<bv8>, date: string,
                    sign: (seq<bv8>, string) -> string): (r: Request)
    ensures r.verb == req.verb && r.path == req.path && r.query == req.query
    ensures Lookup(r.headers, "x-ms-date") == Some(date)
    ensures Lookup(r.headers, "x-ms-version")
         == if Lookup(req.headers, "x-ms-version").Some? then Lookup(req.headers, "x-ms-version") else Some(ApiVersion)
    ensures forall m :: m != "x-ms-date" && m != "x-ms-version" && m != "authorization" ==>
              Lookup(r.headers, m) == Lookup(req.headers, m)
    ensures Lookup(r.headers, "authorization")
         == Some(Authorization(account, sign(key, StringToSign(req.(headers := Stamp(req.headers, date)), account))))
  {
    var stamped := Stamp(req.headers, date);
    var signature := sign(key, StringToSign(req.(headers := stamped), account));
    req.(headers := Set(stamped, "authorization", Authorization(account, signature)))
  }
}

=== FILE: signing.dfy ===
/** What the Shared Key string to sign guarantees: the signed string can be
    read back into its parts, it does not depend on the order in which headers
    were set or query parameters written, and the authorization header names
    the account and the signature unambiguously. */
module SigningProperties {
  import opened Wrappers
  import opened Strings
  import opened SharedKey

  /** Reads `n` newline-terminated lines off the front of `s`, returning them
      and what follows. */
  function TakeLines(s: string, n: nat): Option<(seq<string>, string)> {
    if n == 0 then Some(([], s))
    else match FirstIndex(s, '\n')
      case None => None
      case Some(i) =>
        match TakeLines(s[i + 1..], n - 1)
        case None => None
        case Some(more) => Some(([s[..i]] + more.0, more.1))
  }

  predicate NoNewline(xs: seq<string>) {
    forall k :: 0 <= k < |xs| ==> '\n' !in xs[k]
  }

  lemma {:induction false} TerminatedLines(xs: seq<string>, rest: string)
    requires NoNewline(xs)
    ensures TakeLines(Terminated(xs) + rest, |xs|) == Some((xs, rest))
  {
    if |xs| > 0 {
      var tail := Terminated(xs[1..]) + rest;
      var s := xs[0] + ['\n'] + tail;
      assert Terminated(xs) + rest == s;
      FirstIndexOf(xs[0], '\n', tail);
      assert s[|xs[0]| + 1..] == tail;
      assert s[..|xs[0]|] == xs[0];
      assert NoNewline(xs[1..]) by {
        assert forall k :: 1 <= k < |xs| ==> xs[1..][k - 1] == xs[k];
      }
      TerminatedLines(xs[1..], rest);
      assert TakeLines(tail, |xs| - 1) == Some((xs[1..], rest));
      assert TakeLines(s, |xs|) == Some(([s[..|xs[0]|]] + xs[1..], rest));
      assert [xs[0]] + xs[1..] == xs;
    } else {
      assert Terminated(xs) + rest == rest;
    }
  }

  /** The first twelve lines of the string to sign are the verb and the eleven
      header slots, and the rest is the canonicalized headers followed by the
      canonicalized resource: the signature covers each of them separately. */
  lemma StringToSignLines(req: Request, account: string)
    requires NoNewline([req.verb] + HeaderSlots(req.headers))
    ensures TakeLines(StringToSign(req, account), 1 + |HeaderSlots(req.headers)|)
         == Some(([req.verb] + HeaderSlots(req.headers),
                  CanonicalHeaders(req.headers) + CanonicalResource(account, req.path, req.query)))
  {
    var lines := [req.verb] + HeaderSlots(req.headers);
    var rest := CanonicalHeaders(req.headers) + CanonicalResource(account, req.path, req.query);
    assert StringToSign(req, account) == Terminated(lines) + rest;
    TerminatedLines(lines, rest);
  }

  /** Two requests whose verb or header slots differ, none holding a newline,
      have different strings to sign. */
  lemma SlotsAreSigned(req1: Request, req2: Request, account: string)
    requires NoNewline([req1.verb] + HeaderSlots(req1.headers))
    requires NoNewline([req2.verb] + HeaderSlots(req2.headers))
    requires [req1.verb] + HeaderSlots(req1.headers) != [req2.verb] + HeaderSlots(req2.headers)
    ensures StringToSign(req1, account) != StringToSign(req2, account)
  {
    StringToSignLines(req1, account);
    StringToSignLines(req2, account);
  }

  /** Same entries, each name once: the same answer to every lookup. */
  lemma LookupOrderFree(h1: Headers, h2: Headers, name: string)
    requires WellFormed(h1) && WellFormed(h2)
    requires forall e :: e in h1 <==> e in h2
    ensures Lookup(h1, name) == Lookup(h2, name)
  {
    var l1, l2 := Lookup(h1, name), Lookup(h2, name);
    if l1.Some? {
      var i :| 0 <= i < |h1| && h1[i] == (name, l1.value);
      assert h1[i] in h2;
    }
    if l2.Some? {
      var j :| 0 <= j < |h2| && h2[j] == (name, l2.value);
      assert h2[j] in h1;
    }
    if l1.Some? && l2.Some? {
      var i :| 0 <= i < |h2| && h2[i] == (name, l1.value);
      var j :| 0 <= j < |h2| && h2[j] == (name, l2.value);
      assert i == j;
    }
  }

  /** The canonicalized headers depend only on which headers are present, not
      on the order they were set in. */
  lemma CanonicalHeadersOrderFree(h1: Headers, h2: Headers)
    requires WellFormed(h1) && WellFormed(h2)
    requires forall e :: e in h1 <==> e in h2
    ensures CanonicalHeaders(h1) == CanonicalHeaders(h2)
  {
    var m1, m2 := MsHeaders(h1), MsHeaders(h2);
    var c1, c2 := CanonicalEntries(h1), CanonicalEntries(h2);
    forall e | e in m1
      ensures e in m2
    {
      var i :| 0 <= i < |h1| && IsMsHeader(h1[i].0) && e == (Lower(h1[i].0), Strip(h1[i].1));
      assert h1[i] in h2;
    }
    forall e | e in m2
      ensures e in m1
    {
      var i :| 0 <= i < |h2| && IsMsHeader(h2[i].0) && e == (Lower(h2[i].0), Strip(h2[i].1));
      assert h2[i] in h1;
    }
    forall e
      ensures e in c1 <==> e in c2
    {
      assert e in c1 <==> e in multiset(c1);
      assert e in c2 <==> e in multiset(c2);
      assert e in m1 <==> e in multiset(m1);
      assert e in m2 <==> e in multiset(m2);
    }
    MsHeadersDistinct(h1);
    MsHeadersDistinct(h2);
    SortKeepsDistinct(m1, Name);
    SortKeepsDistinct(m2, Name);
    SortedUnique(c1, c2, Name);
  }

  /** The canonicalized resource depends only on which query parameters are
      present, not on the order they were written in. */
  lemma CanonicalResourceOrderFree(account: string, path: string, q1: Query, q2: Query)
    requires DistinctKeys(q1, Key) && DistinctKeys(q2, Key)
    requires forall e :: e in q1 <==> e in q2
    ensures CanonicalResource(account, path, q1) == CanonicalResource(account, path, q2)
  {
    if |q1| > 0 {
      assert q1[0] in q2;
    }
    if |q2| > 0 {
      assert q2[0] in q1;
    }
    var s1, s2 := SortBy(q1, Key), SortBy(q2, Key);
    forall e
      ensures e in s1 <==> e in s2
    {
      assert e in s1 <==> e in multiset(s1);
      assert e in s2 <==> e in multiset(s2);
      assert e in q1 <==> e in multiset(q1);
      assert e in q2 <==> e in multiset(q2);
    }
    SortKeepsDistinct(q1, Key);
    SortKeepsDistinct(q2, Key);
    SortedUnique(s1, s2, Key);
  }

  /** Two requests that differ only in the order of their headers and query
      parameters are signed identically. */
  lemma SignatureIgnoresOrder(req1: Request, req2: Request, account: string)
    requires req1.verb == req2.verb && req1.path == req2.path
    requires WellFormed(req1.headers) && WellFormed(req2.headers)
    requires forall e :: e in req1.headers <==> e in req2.headers
    requires DistinctKeys(req1.query, Key) && DistinctKeys(req2.query, Key)
    requires forall e :: e in req1.query <==> e in req2.query
    ensures StringToSign(req1, account) == StringToSign(req2, account)
  {
    forall i | 0 <= i < |SlotNames|
      ensures Slot(req1.headers, SlotNames[i]) == Slot(req2.headers, SlotNames[i])
    {
      LookupOrderFree(req1.headers, req2.headers, SlotNames[i]);
    }
    assert HeaderSlots(req1.headers) == HeaderSlots(req2.headers);
    CanonicalHeadersOrderFree(req1.headers, req2.headers);
    CanonicalResourceOrderFree(account, req1.path, req1.query, req2.query);
  }

  /** Splits an `Authorization` value back into account and signature. */
  function ParseAuthorization(v: string): (r: Option<(string, string)>)
    ensures r.Some? ==> v == Authorization(r.value.0, r.value.1)
  {
    var scheme := "SharedKey ";
    if |v| < |scheme| || v[..|scheme|] != scheme then None
    else
      var rest := v[|scheme|..];
      match FirstIndex(rest, ':')
      case None => None
      case Some(i) =>
        assert v == scheme + rest;
        assert rest == rest[..i] + ":" + rest[i + 1..];
        Some((rest[..i], rest[i + 1..]))
  }

  /** The header names the account and the signature unambiguously as long as
      the account name has no colon. */
  lemma AuthorizationRoundTrip(account: string, signature: string)
    requires ':' !in account
    ensures ParseAuthorization(Authorization(account, signature)) == Some((account, signature))
  {
    var v := Authorization(account, signature);
    assert v[|"SharedKey "|..] == account + [':'] + signature;
    FirstIndexOf(account, ':', signature);
    assert (account + [':'] + signature)[..|account|] == account;
    assert (account + [':'] + signature)[|account| + 1..] == signature;
  }
}

=== FILE: statmode.dfy ===
/** The file-type tests of POSIX `<sys/stat.h>` as exposed by Python's `stat`
    module: `S_ISDIR(m)` and `S_ISREG(m)` compare `m & S_IFMT` with one file
    type each. Modes are 32-bit, the width of `mode_t`. */
module StatMode {

  /** `S_IFMT`, octal 0170000: the file-type bits of a mode. */
  const FileTypeMask: bv32 := 0xF000
  /** `S_IFDIR`, octal 0040000. */
  const DirectoryType: bv32 := 0x4000
  /** `S_IFREG`, octal 0100000. */
  const RegularType: bv32 := 0x8000

  function FileType(mode: bv32): bv32 {
    mode & FileTypeMask
  }

  /** `stat.S_ISDIR(mode)`. */
  predicate IsDirMode(mode: bv32) {
    FileType(mode) == DirectoryType
  }

  /** `stat.S_ISREG(mode)`. */
  predicate IsRegMode(mode: bv32) {
    FileType(mode) == RegularType
  }

  /** A mode is never both a directory and a regular file: the two tests read
      the same field and expect different values in it. */
  lemma NeverBoth(mode: bv32)
    ensures !(IsDirMode(mode) && IsRegMode(mode))
  {
  }

  /** Only the file-type bits matter: permission, set-id and sticky bits
      (everything outside the mask) never change either answer. */
  lemma OnlyTypeBitsMatter(mode: bv32, other: bv32)
    requires other & FileTypeMask == 0
    ensures IsDirMode(mode | other) == IsDirMode(mode)
    ensures IsRegMode(mode | other) == IsRegMode(mode)
  {
    assert (mode | other) & FileTypeMask == (mode & FileTypeMask) | (other & FileTypeMask);
  }
}

=== FILE: strings.dfy ===
/** The few Python string operations the core relies on, over `seq<char>`:
    `str.lower()` on ASCII names, `str.strip()`, `sep.join(xs)`, and the
    code-point ordering that `sorted()` uses on `str` values. */
module Strings {
  import opened Wrappers

  /** `str.lower()` restricted to ASCII letters; header names and the
      query keys the model handles are ASCII. */
  function LowerChar(c: char): char {
    if 'A' <= c <= 'Z' then (c as int + 32) as char else c
  }

  function Lower(s: string): string {
    seq(|s|, i requires 0 <= i < |s| => LowerChar(s[i]))
  }

  predicate IsLower(s: string) {
    Lower(s) == s
  }

  /** The characters for which Python's `str.isspace()` holds. */
  predicate IsSpace(c: char) {
    var n := c as int;
    || n == 0x20 || 0x09 <= n <= 0x0D || 0x1C <= n <= 0x1F || n == 0x85 || n == 0xA0
    || n == 0x1680 || 0x2000 <= n <= 0x200A || n == 0x2028 || n == 0x2029
    || n == 0x202F || n == 0x205F || n == 0x3000
  }

  predicate AllSpace(s: string) {
    forall k :: 0 <= k < |s| ==> IsSpace(s[k])
  }

  /** Number of leading whitespace characters. */
  function LeadingSpace(s: string): (n: nat)
    ensures n <= |s|
    ensures AllSpace(s[..n])
    ensures n < |s| ==> !IsSpace(s[n])
  {
    if |s| == 0 || !IsSpace(s[0]) then 0
    else
      var m := LeadingSpace(s[1..]);
      assert s[1..][..m] == s[1..m + 1];
      1 + m
  }

  /** Length of `s` once trailing whitespace is dropped. */
  function TrimmedLength(s: string): (n: nat)
    ensures n <= |s|
    ensures AllSpace(s[n..])
    ensures n > 0 ==> !IsSpace(s[n - 1])
  {
    if |s| == 0 || !IsSpace(s[|s| - 1]) then |s|
    else
      var m := TrimmedLength(s[..|s| - 1]);
      assert s[m..] == s[..|s| - 1][m..] + [s[|s| - 1]];
      m
  }

  /** `s.strip()`: the longest middle slice of `s` that neither starts nor ends
      with whitespace, everything cut off being whitespace. */
  function Strip(s: string): (r: string)
    ensures r == "" || (!IsSpace(r[0]) && !IsSpace(r[|r| - 1]))
    ensures exists i :: 0 <= i <= |s| - |r| && r == s[i..i + |r|] && AllSpace(s[..i]) && AllSpace(s[i + |r|..])
  {
    var i := LeadingSpace(s);
    var j := i + TrimmedLength(s[i..]);
    assert s[i..][TrimmedLength(s[i..])..] == s[j..];
    assert s[i..j] == s[i..][..TrimmedLength(s[i..])];
    s[i..j]
  }

  /** `sep.join(xs)`. */
  function Join(sep: string, xs: seq<string>): string {
    if |xs| == 0 then ""
    else if |xs| == 1 then xs[0]
    else xs[0] + sep + Join(sep, xs[1..])
  }

  /** Concatenation of a sequence of strings, `"".join(xs)`. */
  function Concat(xs: seq<string>): string {
    if |xs| == 0 then "" else xs[0] + Concat(xs[1..])
  }

  /** Python's `<` on `str`: lexicographic by code point, a proper prefix first. */
  predicate Less(a: string, b: string) {
    if |b| == 0 then false
    else if |a| == 0 then true
    else if a[0] != b[0] then a[0] < b[0]
    else Less(a[1..], b[1..])
  }

  predicate LessOrEqual(a: string, b: string) {
    a == b || Less(a, b)
  }

  lemma {:induction false} LessTotal(a: string, b: string)
    ensures a == b || Less(a, b) || Less(b, a)
  {
    if |a| == 0 || |b| == 0 {
    } else if a[0] != b[0] {
    } else {
      LessTotal(a[1..], b[1..]);
      if a[1..] == b[1..] {
        assert a == [a[0]] + a[1..];
        assert b == [b[0]] + b[1..];
      }
    }
  }

  lemma {:induction false} LessIrreflexive(a: string)
    ensures !Less(a, a)
  {
    if |a| > 0 {
      LessIrreflexive(a[1..]);
    }
  }

  lemma {:induction false} LessTransitive(a: string, b: string, c: string)
    requires Less(a, b) && Less(b, c)
    ensures Less(a, c)
  {
    if |a| > 0 && a[0] == b[0] && b[0] == c[0] {
      LessTransitive(a[1..], b[1..], c[1..]);
    }
  }

  lemma LessAsymmetric(a: string, b: string)
    requires Less(a, b)
    ensures !Less(b, a) && a != b
  {
    LessIrreflexive(a);
    if Less(b, a) {
      LessTransitive(a, b, a);
    }
  }

  predicate SortedBy<T>(s: seq<T>, key: T -> string) {
    forall i :: 0 < i < |s| ==> LessOrEqual(key(s[i - 1]), key(s[i]))
  }

  function InsertBy<T(==)>(x: T, s: seq<T>, key: T -> string): (r: seq<T>)
    requires SortedBy(s, key)
    ensures SortedBy(r, key)
    ensures multiset(r) == multiset(s) + multiset{x}
    ensures |s| > 0 ==> r[0] == x || r[0] == s[0]
  {
    if |s| == 0 then [x]
    else if LessOrEqual(key(x), key(s[0])) then [x] + s
    else
      LessTotal(key(x), key(s[0]));
      assert s == [s[0]] + s[1..];
      [s[0]] + InsertBy(x, s[1..], key)
  }

  /** `sorted(s, key=key)`: an ordered permutation of `s`. */
  function SortBy<T(==)>(s: seq<T>, key: T -> string): (r: seq<T>)
    ensures SortedBy(r, key)
    ensures multiset(r) == multiset(s)
  {
    if |s| == 0 then []
    else
      assert s == [s[0]] + s[1..];
      InsertBy(s[0], SortBy(s[1..], key), key)
  }

  /** No two elements share a key. */
  predicate DistinctKeys<T>(s: seq<T>, key: T -> string) {
    forall i, j :: 0 <= i < j < |s| ==> key(s[i]) != key(s[j])
  }

  /** In a sorted sequence the first key is the least. */
  lemma {:induction false} SortedFirstLeast<T>(s: seq<T>, key: T -> string, j: nat)
    requires SortedBy(s, key) && j < |s|
    ensures LessOrEqual(key(s[0]), key(s[j]))
  {
    if j > 0 {
      SortedFirstLeast(s, key, j - 1);
      if key(s[0]) != key(s[j - 1]) && key(s[j - 1]) != key(s[j]) {
        LessTransitive(key(s[0]), key(s[j - 1]), key(s[j]));
      }
    }
  }

  lemma {:induction false} InsertKeepsDistinct<T>(x: T, s: seq<T>, key: T -> string)
    requires SortedBy(s, key) && DistinctKeys(s, key)
    requires forall y :: y in s ==> key(y) != key(x)
    ensures DistinctKeys(InsertBy(x, s, key), key)
  {
    if |s| > 0 && !LessOrEqual(key(x), key(s[0])) {
      var tail := InsertBy(x, s[1..], key);
      assert forall y :: y in s[1..] ==> y in s;
      InsertKeepsDistinct(x, s[1..], key);
      forall k | 0 <= k < |tail|
        ensures key(s[0]) != key(tail[k])
      {
        assert tail[k] in multiset(s[1..]) + multiset{x};
        if tail[k] != x {
          var m :| 0 <= m < |s[1..]| && s[1..][m] == tail[k];
          assert s[m + 1] == tail[k];
        }
      }
    }
  }

  lemma {:induction false} SortKeepsDistinct<T>(s: seq<T>, key: T -> string)
    requires DistinctKeys(s, key)
    ensures DistinctKeys(SortBy(s, key), key)
  {
    if |s| > 0 {
      var rest := SortBy(s[1..], key);
      SortKeepsDistinct(s[1..], key);
      forall y | y in rest
        ensures key(y) != key(s[0])
      {
        assert y in multiset(s[1..]);
        var m :| 0 <= m < |s[1..]| && s[1..][m] == y;
        assert s[m + 1] == y;
      }
      InsertKeepsDistinct(s[0], rest, key);
    }
  }

  /** A sorted sequence with distinct keys is determined by its elements. */
  lemma {:induction false} SortedUnique<T>(a: seq<T>, b: seq<T>, key: T -> string)
    requires SortedBy(a, key) && SortedBy(b, key)
    requires DistinctKeys(a, key) && DistinctKeys(b, key)
    requires forall e :: e in a <==> e in b
    ensures a == b
  {
    if |b| > 0 {
      assert b[0] in b;
    }
    if |a| > 0 {
      assert a[0] in a;
      var j :| 0 <= j < |b| && b[j] == a[0];
      assert b[0] in b;
      var i :| 0 <= i < |a| && a[i] == b[0];
      SortedFirstLeast(a, key, i);
      SortedFirstLeast(b, key, j);
      if key(a[0]) != key(b[0]) {
        LessAsymmetric(key(a[0]), key(b[0]));
      }
      assert i == 0;
      forall e
        ensures e in a[1..] <==> e in b[1..]
      {
        if e in a[1..] {
          var k :| 0 <= k < |a[1..]| && a[1..][k] == e;
          assert a[k + 1] == e && e in b && e != b[0];
        }
        if e in b[1..] {
          var k :| 0 <= k < |b[1..]| && b[1..][k] == e;
          assert b[k + 1] == e && e in a && e != a[0];
        }
      }
      SortedUnique(a[1..], b[1..], key);
      assert a == [a[0]] + a[1..];
      assert b == [b[0]] + b[1..];
    }
  }

  function Identity(s: string): string {
    s
  }

  /** `sorted(xs)` on a sequence of strings. */
  function Sort(xs: seq<string>): (r: seq<string>)
    ensures SortedBy(r, Identity)
    ensures multiset(r) == multiset(xs)
  {
    SortBy(xs, Identity)
  }

  /** `s.find(c)`, `None` standing for -1. */
  function FirstIndex(s: string, c: char): (r: Option<nat>)
    ensures r.Some? ==> r.value < |s| && s[r.value] == c
  {
    if |s| == 0 then None
    else if s[0] == c then Some(0)
    else match FirstIndex(s[1..], c)
      case None => None
      case Some(i) => Some(i + 1)
  }

  lemma {:induction false} FirstIndexAt(x: string, c: char, y: string)
    requires c !in x && |y| > 0 && y[0] == c
    ensures FirstIndex(x + y, c) == Some(|x|)
  {
    if |x| > 0 {
      assert (x + y)[1..] == x[1..] + y;
      FirstIndexAt(x[1..], c, y);
    }
  }

  lemma {:induction false} FirstIndexOf(x: string, c: char, y: string)
    requires c !in x
    ensures FirstIndex(x + [c] + y, c) == Some(|x|)
  {
    if |x| > 0 {
      assert (x + [c] + y)[1..] == x[1..] + [c] + y;
      FirstIndexOf(x[1..], c, y);
    }
  }
}

=== FILE: wrappers.dfy ===
/** Failure-compatible wrappers shared by every module of the model.
    A Python call that may raise is modelled as a function returning a
    `Result`; an attribute that may hold `None` is modelled as an `Option`. */
module Wrappers {

  datatype Option<+T> = None | Some(value: T)

  datatype Result<+T, +E> = Success(value: T) | Failure(error: E) {

    predicate IsFailure() {
      Failure?
    }

    function PropagateFailure<U>(): Result<U, E>
      requires Failure?
    {
      Failure(error)
    }

    function Extract(): T
      requires Success?
    {
      value
    }
  }
}
